=== FILE: README.md ===
# Career-page finder and job-result post-processing, modelled in Dafny

This project models the decision logic of a two-stage job-hunting tool.

- **Career-page discovery** (`career_page_url_finder.py`). For each company website it runs
  a fixed chain of strategies:
  0. probe career subdomains (`careers.<base domain>` and twelve others);
  1. load the homepage, look for a known third-party job-board link, then hover the
     navigation labels and scan for career-like link texts;
  2. scan the footer links;
  3. scan every link on the page;
  4. probe 61 direct paths (`/careers`, `/jobs`, ...);
  5. fall back to a search engine.

  The first strategy that yields a URL ends the chain. The run also resumes: companies
  already recorded with a career URL are skipped, and every other company gets exactly one
  output row, provided every input cell is a string (see "## Left out").
- **Job-result post-processing** (`job_scraper.py`). It selects job-board rows from a sheet,
  turns the browsing agent's outcome for one board into a result record, extracts job
  objects from the JSON values decoded out of the agent's text, and keeps the jobs whose
  title, seniority and location match fixed keyword lists.

Everything the tool does through a browser, the network, a search engine, a JSON decoder
or an AI agent is an oracle parameter, and so is regex matching of link texts and
job-board patterns. The host regex, the signal alternations and the anchored
navigation-label filter are modelled directly. The oracles are:

- `Probe` (what navigating to a URL gives);
- `HomeLoad`/`Page` (the loaded homepage, its links and footer links, and what hovering a
  navigation label reveals);
- `Landing` (one search attempt);
- `matches(pattern, subject)` (a case-insensitive `re.search`);
- `launches` (whether strategy 0's own browser starts and opens its page);
- `decode` (the JSON-looking substrings of a result, decoded);
- `AgentRun` (how the agent's run on one board ended).

The modules follow the program:

- `Catalogs` holds the constant lists.
- `Urls` and `Strings` hold href resolution, host parsing, base domains, trailing-slash
  stripping, lowering and substring search.
- `Probing` holds candidate generation and probe acceptance.
- `Pages` holds the link scans.
- `Chain` holds the strategy chain. It records the strategies it started, so that "later
  strategies never run" is a property of its result.
- `Recorder` holds resume and record.
- `JobBoards` and `JobResults` hold the job scraper's post-processing.
- `Wrappers`, `Seqs` and `Values` are shared helpers.

Behaviours of the code worth knowing, which the model follows:

- Two input rows naming the same unprocessed company both get a row. The processed set is
  computed once, before the run (`Recorder.DuplicateRowsBothRecorded`).
- A third-party job-board href is returned exactly as written in the page, without
  resolution, so it may be relative (`Chain.ThirdPartyTakesPrecedence`).
- An exception while starting strategy 0's own browser is not caught anywhere in the
  chain. The whole discovery fails, and the company gets a row with an empty career URL
  (`Chain.Discover`, `Recorder.RecordedCareerUrl`).
- A homepage answered with a 4xx or 5xx status is still scanned. Only the direct and
  subdomain probes check the status.
- The website `https://` resolves to `https:` followed by the href: `rstrip("/")` also
  strips the scheme's slashes. `Urls.ResolveIsAbsolute` therefore requires a host.
- The keyword filter raises when a job's title, description or location is present but is
  not a string (for instance a JSON `null`). The exception escapes the whole parse
  (`JobResults.KeywordFilter`).

## Model

| member | source | states |
|---|---|---|
| Catalogs.CatalogSizes | career_page_url_finder.py:11-96 | 61 direct paths, 13 subdomain labels, 17 job-board patterns and 25 link-text patterns |
| Catalogs.RepeatedPaths | career_page_url_finder.py:11-48 | `/job-opportunities` sits at positions 13, 18 and 52, `/job-openings` at 5, 22 and 53, `/career-opportunities` at 15 and 51 |
| Catalogs.PathsAreRooted | career_page_url_finder.py:11-48 | every direct path starts with `/` |
| Catalogs.SubdomainLabelIsPlain | career_page_url_finder.py:51-55 | every subdomain label is a plain host label: no dot, no slash, and it does not begin with `ww` |
| Strings.Lower | job_scraper.py:248-250 | ASCII lowering keeps the length and lowers every character |
| Strings.LowerIdempotent | job_scraper.py:248-256 | lowering twice is lowering once |
| Strings.ContainsIffOccurs | job_scraper.py:253-261 | the substring test (`keyword in text`) holds exactly when the word occurs at some position |
| Strings.RStripSlash | career_page_url_finder.py:181 | `rstrip("/")` gives a prefix that does not end in `/`, and only slashes were removed |
| Strings.Split | career_page_url_finder.py:105 | `split('.')` gives at least one part, no part contains the separator, and joining the parts gives back the string |
| Strings.SplitJoin | career_page_url_finder.py:105 | splitting the join of separator-free parts gives back the parts |
| Urls.SchemeLength | career_page_url_finder.py:100 | the matched scheme prefix is exactly `http://` or `https://`, and it is `https://` exactly when the URL starts with it |
| Urls.Resolve | career_page_url_finder.py:180-183 | an href starting with `/` is appended to the website without trailing slashes; a scheme-qualified href is returned unchanged; any other href is appended after one `/`; the href is always a suffix of the result |
| Urls.StripKeepsScheme | career_page_url_finder.py:198-201 | stripping trailing slashes from a website with a host keeps its scheme and host |
| Urls.ResolveIsAbsolute | career_page_url_finder.py:213-216 | against a website with a host, every resolved href is scheme-qualified |
| Urls.ResolveIdempotent | career_page_url_finder.py:180-183 | against a website with a host, resolving an already resolved href changes nothing |
| Urls.TakeHost | career_page_url_finder.py:100 | `[^/]+` consumes the longest prefix without a slash |
| Urls.HostOf | career_page_url_finder.py:100-102 | no host exactly when the URL lacks an http(s) scheme or nothing, or a `/`, immediately follows the scheme; otherwise the host is the longest slash-free prefix after the scheme and an optional `www.`, the `www.` being kept when nothing else would remain |
| Urls.TakeHostStopsAtSlash | career_page_url_finder.py:100 | the host capture stops at the first slash |
| Urls.HostDropsWww | career_page_url_finder.py:100-104 | a leading `www.` is not part of the host: `https://www.<h>/<path>` has host `<h>` |
| Urls.LastTwo | career_page_url_finder.py:105 | `[-2:]` keeps the last two labels, or all of them when fewer |
| Urls.BaseDomain | career_page_url_finder.py:105 | the base domain is a suffix of the host |
| Urls.BaseDomainLabels | career_page_url_finder.py:105 | the labels of the base domain are the host's last two labels (all of them when fewer) |
| Urls.BaseDomainIdempotent | career_page_url_finder.py:104-105 | taking the base domain of a base domain changes nothing |
| Urls.BaseDomainUnderLabel | career_page_url_finder.py:109 | one more label in front of a two-label base domain leaves the base domain unchanged |
| Urls.NormalizeWebsite | career_page_url_finder.py:340-341 | a website without an http(s) scheme gets `https://` in front; one with a scheme is kept |
| Urls.NormalizeWebsiteIdempotent | career_page_url_finder.py:340-341 | normalising twice is normalising once |
| Seqs.FirstIndex | career_page_url_finder.py:117-129 | first-match-wins scanning: the position found satisfies the test and no earlier one does; none found means no element does |
| Seqs.Filter | career_page_url_finder.py:320-324 | the kept elements all pass the test, every passing element is kept, and the result is an order-preserving subsequence |
| Seqs.FilterMultiset | career_page_url_finder.py:320-324 | filtering keeps every passing element as often as it occurs and drops every other one |
| Seqs.FilterAppend | job_scraper.py:246-265 | filtering distributes over concatenation |
| Seqs.FilterIdempotent | job_scraper.py:246-265 | filtering twice is filtering once |
| Probing.PageAcceptanceImpliesDirect | career_page_url_finder.py:234 | the direct-path signal alternation contains the one used for subdomain and search pages, so a probe accepted against the page signals is accepted against the direct-path signals |
| Probing.FirstAccepted | career_page_url_finder.py:117-132 | candidates are probed in order; the run stops at the first accepted one, and every earlier probe was a miss; no accepted candidate means all were probed and all missed |
| Probing.CandidatesUnder | career_page_url_finder.py:107-109 | one candidate `https://<label>.<base domain>` per subdomain label, in label order, each an `https://` URL |
| Probing.SubdomainCandidates | career_page_url_finder.py:100-109 | none exactly when the website has no http(s) host; otherwise the candidates under the base domain of its host |
| Probing.SubdomainCandidateHost | career_page_url_finder.py:100-109 | the host of every subdomain candidate parses back to `<label>.<base domain>` |
| Probing.CandidatesFollowBaseDomain | career_page_url_finder.py:104-109 | two websites with the same base domain get the same subdomain candidates |
| Probing.SubdomainCandidatesStable | career_page_url_finder.py:100-109 | for a host with at least two labels, generating candidates from any candidate gives the same candidates again |
| Probing.DirectCandidates | career_page_url_finder.py:224-226 | one candidate per catalog path, in catalog order: the website without trailing slashes followed by the path |
| Probing.DirectCandidatesOnSite | career_page_url_finder.py:224-226 | against a website with a host, every direct candidate is scheme-qualified and on that website |
| Probing.DirectCandidatesRepeat | career_page_url_finder.py:11-48 | the repeated catalog paths are probed repeatedly: `/job-opportunities` three times and `/job-openings` three times |
| Probing.SearchQueries | career_page_url_finder.py:243-249 | five queries, each the company name followed by its suffix, in order |
| Probing.SearchStrategy | career_page_url_finder.py:251-269 | the result is the landing URL of the first query whose landing page carries a page signal, every earlier query having failed; none when no query lands on such a page |
| Pages.ThirdPartyScan | career_page_url_finder.py:150-161 | the raw href of the first link in document order whose readable, non-empty href matches some job-board pattern; links whose href cannot be read are skipped |
| Pages.PatternVerdict | career_page_url_finder.py:174-185 | for one link-text pattern, only the first link whose text matches it counts: its resolved href is a hit; an unreadable href is an exception; a missing or empty href is a miss, even when later links match |
| Pages.FirstDecisive | career_page_url_finder.py:174-185 | the first verdict that is not a miss, with all earlier ones misses; a miss only when all are |
| Pages.LinkTextVerdicts | career_page_url_finder.py:192-203 | one verdict per link-text pattern, in pattern order |
| Pages.LinkTextScan | career_page_url_finder.py:207-218 | patterns form the outer loop: the result is the verdict of the earliest pattern that is decisive, all earlier patterns missing; a miss only when every pattern misses |
| Pages.LinkTextHitIsAbsolute | career_page_url_finder.py:213-218 | against a website with a host, a link-text hit is scheme-qualified |
| Pages.EmptyHrefSkipsPattern | career_page_url_finder.py:176-178 | a first matching link with a missing or empty href makes the pattern a miss |
| Pages.NavVerdict | career_page_url_finder.py:164-170 | a navigation label decides anything only when some link's whole text equals it, ignoring case; then a failing hover raises, and otherwise the verdict is the link-text scan of the links visible after the hover |
| Pages.NavVerdicts | career_page_url_finder.py:164 | one verdict per navigation label, in label order |
| Pages.NavScan | career_page_url_finder.py:164-185 | the verdict of the first navigation label that some link carries and that is decisive, all earlier labels missing; a miss only when all miss |
| Pages.NavVerdictHitIsAbsolute | career_page_url_finder.py:166-185 | against a website with a host, a hit for one navigation label is scheme-qualified |
| Pages.NavHitIsAbsolute | career_page_url_finder.py:179-185 | against a website with a host, a navigation hit is scheme-qualified |
| Chain.SubdomainStrategy | career_page_url_finder.py:98-132 | no candidates exactly when the website has no http(s) host; a launch failure exactly when there are candidates and the browser does not start; otherwise the run is the in-order probe of the candidates that stops at the first one answering below 400 with a page signal, so that candidate is strategy 0's URL |
| Chain.OrderedAppend | career_page_url_finder.py:138-276 | traces of strategies in chain order with non-overlapping ranks concatenate to a trace in chain order |
| Chain.CombineHomepage | career_page_url_finder.py:149-218 | strategies 1 to 3 find a URL exactly when there is a job-board link, a navigation hit, a footer hit after a navigation miss, or a page hit after both missed; a job-board link ends them at once; the footer scan runs exactly when there was no job-board link and the navigation scan missed; the page scan runs exactly when the footer scan also missed; each winner's URL is its scan's hit |
| Chain.HomepageStrategies | career_page_url_finder.py:144-220 | strategies 1 to 3 start with the navigation strategy, run in chain order, never let an exception escape, and end with the winner when they find a URL; a homepage that fails to load ends them as a miss, and a loaded one is decided by the third-party, navigation, footer and whole-page scans in that order |
| Chain.CombineTail | career_page_url_finder.py:222-276 | an accepted direct path ends the chain; otherwise the search runs; the result is a miss exactly when both came back empty |
| Chain.CombineAfterSubdomains | career_page_url_finder.py:143-276 | the direct paths and the search run only when strategies 1 to 3 found nothing; their trace follows strategies 1 to 3 in chain order |
| Chain.AfterSubdomains | career_page_url_finder.py:143-276 | strategies 1 to 5 start with the navigation strategy, run in chain order, never let an exception escape, and end with the winner when they find a URL; a hit of strategies 1 to 3 is the result, and otherwise the direct-path and search outcome is, with both traces run |
| Chain.CombineChain | career_page_url_finder.py:138-141 | a subdomain hit ends the chain; an escaped launch failure ends it as a crash and is the only way to crash; otherwise the remaining strategies follow |
| Chain.Discover | career_page_url_finder.py:134-276 | the chain starts with strategy 0, starts strategies in strictly increasing order, ends with the winning strategy, and crashes exactly when strategy 0's browser fails to start, in which case nothing after strategy 0 runs; a subdomain hit is the whole result, and otherwise, when strategy 0 did not crash, strategies 1 to 5 decide the outcome after it |
| Chain.DiscoverShortCircuit | career_page_url_finder.py:139-141 | once a strategy finds a URL, no later strategy has run |
| Chain.ThirdPartyTakesPrecedence | career_page_url_finder.py:149-161 | a job-board link on the homepage is the result, as a raw href, whatever the later scans, direct paths or search would give |
| Chain.HomepageExceptionSkipsToDirectPaths | career_page_url_finder.py:144-222 | when the homepage fails to load or the navigation scan raises, the footer and page scans are skipped and the chain resumes at the direct paths |
| Chain.NotFoundExactlyWhenAllFail | career_page_url_finder.py:275-276 | the chain ends in a miss, not an error, exactly when strategy 0 ran without a hit and every later strategy came back empty |
| Chain.SubdomainHitIsAbsolute | career_page_url_finder.py:109-127 | a subdomain hit is an `https://` URL |
| Chain.HomepageHitIsAbsolute | career_page_url_finder.py:179-218 | against a website with a host, a link-text hit of strategies 1 to 3 is scheme-qualified |
| Chain.DirectHitIsAbsolute | career_page_url_finder.py:224-236 | against a website with a host, a direct-path hit is scheme-qualified |
| Chain.FoundUrlIsAbsolute | career_page_url_finder.py:134-236 | against a website with a host, every URL found by subdomains, link texts or direct paths is scheme-qualified |
| Recorder.Processed | career_page_url_finder.py:304-311 | a company is processed exactly when some stored row names it with a non-empty career URL |
| Recorder.Queue | career_page_url_finder.py:316-324 | the queue is an order-preserving subsequence of the input; it holds no processed company and every unprocessed input row as often as the input holds it |
| Recorder.RecordFor | career_page_url_finder.py:337-341 | the row names the company (`company`, else `name`) and the website (`website`, else `url`) normalised to carry a scheme |
| Recorder.RecordedCareerUrl | career_page_url_finder.py:346-371 | the recorded career URL is what discovery on the normalised website found, and empty on a miss or an escaped exception |
| Recorder.AppendRecords | career_page_url_finder.py:336-371 | existing rows are kept and one record per queued row is appended, in queue order |
| Recorder.ProcessCompanies | career_page_url_finder.py:293-371 | one run keeps the stored rows and appends exactly one row per queued company, in queue order |
| Recorder.ResumeSkipsProcessed | career_page_url_finder.py:320-324 | no record made for a queued row names a company that was already processed |
| Recorder.ProcessedGrows | career_page_url_finder.py:304-311 | appending rows never shrinks the processed set, and every appended row with a career URL makes its company processed |
| Recorder.DuplicateRowsBothRecorded | career_page_url_finder.py:320-324 | two input rows naming the same unprocessed company both stay in the queue, so each gets its own row |
| JobBoards.LoadJobBoards | job_scraper.py:72-90 | exactly the rows whose last cell is a string with an http(s) scheme yield a board, with the first cell as company |
| JobBoards.LoadJobBoardsAppend | job_scraper.py:76-88 | loading distributes over concatenation, so boards keep row order |
| JobBoards.LoadJobBoardsSingle | job_scraper.py:80-87 | a single row yields its board exactly when it is selected |
| JobBoards.ScrapeJobBoard | job_scraper.py:94-191 | company and source URL are always echoed; the result is the agent's text when it finished without the no-jobs marker, and `[]` on the marker, on a timeout or on any exception inside the `try` |
| JobBoards.ContainsNeedsRoom | job_scraper.py:162 | a marker longer than the text never occurs in it |
| JobBoards.ResultNeverMarked | job_scraper.py:162-191 | no recorded result carries the no-jobs marker |
| JobBoards.ScrapeIdempotent | job_scraper.py:162-175 | feeding a recorded result back as the agent's text records it unchanged |
| JobResults.Stamp | job_scraper.py:216-217 | an extracted job keeps an existing `company` and otherwise takes the result's; `source_url` is always overwritten; no other key changes |
| JobResults.StampTitled | job_scraper.py:213-219 | every job a list contributes has a title, a company and the result's source URL, and there are no more jobs than elements |
| JobResults.StampTitledIsFilter | job_scraper.py:214-219 | those jobs are the titled elements of the list, in list order, each stamped |
| JobResults.JobsFrom | job_scraper.py:212-235 | a list gives its titled objects; an object with a list under `jobs` gives that list's titled objects and not itself; any other titled object gives itself; anything else gives nothing |
| JobResults.JobsFromStamped | job_scraper.py:226-234 | every contributed job has a title, a company and the result's source URL |
| JobResults.CandidateJobs | job_scraper.py:208-237 | every contributed job has a title, a company and the result's source URL |
| JobResults.CandidateJobsSingle | job_scraper.py:208-237 | an undecodable candidate contributes nothing, and a decoded one exactly the jobs of its value |
| JobResults.CandidateJobsAppend | job_scraper.py:208-237 | jobs appear in candidate order |
| JobResults.ExtractJobs | job_scraper.py:197-239 | every extracted job has a title, a company and the source URL of some result |
| JobResults.ExtractJobsSingle | job_scraper.py:197-239 | one result contributes the jobs of its decoded candidates, stamped with its company and source URL |
| JobResults.ExtractJobsAppend | job_scraper.py:197-200 | jobs appear in result order |
| JobResults.RelevantOnRawFields | job_scraper.py:248-264 | the filter's doubly lowered test is the singly lowered test: some role and some seniority keyword in the title, and some location keyword in the location or the description |
| JobResults.KeywordFilter | job_scraper.py:246-265 | the filter raises exactly when some job has a non-string title, description or location; otherwise it keeps exactly the relevant jobs, as an order-preserving subsequence of unmodified jobs that keeps every relevant job as often as it occurs |
| JobResults.KeywordFilterIdempotent | job_scraper.py:246-265 | filtering the kept jobs again keeps all of them |
| JobResults.KeywordFilterAppend | job_scraper.py:246-265 | filtering distributes over concatenation when neither part raises |
| JobResults.ParseJobResults | job_scraper.py:194-268 | the kept jobs are an order-preserving subsequence of the extracted jobs, all relevant, and include every relevant extracted job as often as it was extracted; the parse raises exactly when an extracted job cannot be filtered |

## Left out

- Browser mechanics are oracles: launching, `goto`, `networkidle` waits, the hover settle
  time, timeouts, and the separate browser of strategy 0. A probe that raises or times out
  is `Unreachable`.
- Regular-expression matching of link texts and job-board patterns is the opaque
  `matches` oracle. Only the signal alternations are plain literals. They are checked as
  ASCII-lowered substrings; non-ASCII case folding is not modelled.
- The page after a hover is the hover oracle's link list. Footer and page scans use the
  links as first loaded: later DOM changes are not modelled.
- The search strategy's mechanics are folded into the `Landing` oracle: the unencoded
  query URL, the `h3` heading filter and the click. Only "first accepted landing over the
  five queries in order" is kept.
- An exception in `browser.close()` after a subdomain hit is not modelled. In the code it
  would send the loop on to the next candidate.
- CSV and pandas reading and writing, `os.path` checks and file creation: the store is a
  sequence of rows. The timestamp column and `extracted_at` are not modelled.
- Exceptions outside discovery's own handlers are not modelled: opening a new page, and
  the main browser launch of the run.
- Input cells are modelled as strings. `csv.DictReader` fills the missing cells of a short
  input row with `None`. A `None` website then makes `website.startswith(...)` at
  `career_page_url_finder.py:340` raise before the `try`. That ends the whole run: the row
  and every later company get no row, and a rerun stops at the same row again.
- Strategy 0's final `browser.close()` after every candidate missed
  (`career_page_url_finder.py:131`) is outside any handler too. A failure there would
  crash the chain after the probes. The model has no oracle for it. Cooldowns, `asyncio` and concurrency are not
  modelled either.
- The environment set-up, the proxy-lite agent itself, `json.loads` and the greedy
  extraction regex are not modelled. The agent is `AgentRun`; the regex and decoder
  together are the `decode` oracle. Key order of decoded objects is not modelled.
- `export_results` and the argparse / `main` wiring are not part of this model.
- JobBoards.LoadJobBoards: requires every row to have at least one cell. A sheet read with
  pandas always has a column, so `iloc[0]` and `iloc[-1]` exist.
- Building the runner configuration (`RunnerConfig.from_dict`) happens before the `try`
  of `scrape_job_board`; an exception there would escape the whole run. The model starts
  at the `try`.

=== FILE: catalogs.dfy ===
/** The fixed, ordered catalogs that drive career-page discovery and the
    job-result filter. Order is part of their meaning: every scan over them
    is first-match-wins. */
module Catalogs {

  /** Paths probed directly under the site root, in declared order, duplicates
      kept. Written as the commented groups of `career_page_url_finder.py`. */
  const StandardPaths: seq<string> := [
    "/careers", "/jobs", "/join-us", "/work-with-us", "/join",
    "/job-openings", "/vacancies", "/positions", "/employment",
    "/career", "/work", "/hiring", "/apply", "/job-opportunities"]
  const OpportunityPaths: seq<string> := [
    "/opportunities", "/career-opportunities", "/open-opportunities",
    "/current-opportunities", "/job-opportunities"]
  const OpeningPaths: seq<string> := ["/open-positions", "/openings", "/current-openings", "/job-openings"]
  const CompanyPaths: seq<string> := [
    "/company/careers", "/company/jobs", "/company/join-us", "/company/work-with-us",
    "/company/opportunities", "/company/openings", "/company/positions"]
  const AboutPaths: seq<string> := [
    "/about/careers", "/about/jobs", "/about/join-us", "/about/work-with-us",
    "/about/opportunities", "/about-us/careers", "/about-us/jobs"]
  const TeamPaths: seq<string> := [
    "/team/join", "/team/careers", "/team/jobs", "/join-the-team",
    "/our-team/careers", "/our-team/jobs"]
  const LifePaths: seq<string> := ["/life/careers", "/life/jobs", "/life", "/life-at-company"]
  const HrPaths: seq<string> := ["/hr/careers", "/hr/jobs", "/hr/opportunities", "/recruitment"]
  const HyphenatedPaths: seq<string> := ["/career-opportunities", "/job-opportunities", "/job-openings"]
  const RegionalPaths: seq<string> := [
    "/us/careers", "/usa/careers", "/en/careers", "/global/careers",
    "/careers/india", "/jobs/india", "/careers/remote"]

  const UrlPatterns: seq<string> :=
    StandardPaths + OpportunityPaths + OpeningPaths + CompanyPaths + AboutPaths
    + TeamPaths + LifePaths + HrPaths + HyphenatedPaths + RegionalPaths

  /** Subdomain labels tried in front of the base domain, in declared order. */
  const SubdomainPatterns: seq<string> := [
    "careers", "jobs", "work", "employment", "hiring", "joinus",
    "apply", "talent", "hr", "recruitment", "join",
    "opportunities", "team"
  ]

  /** Job-board URL templates, as regular-expression source text. They are
      only ever handed to the opaque matcher, never interpreted here. */
  const ThirdPartyPatterns: seq<string> := [
    "jobs\\.lever\\.co/([^/]+)",
    "([^/]+)\\.lever\\.co",
    "boards\\.greenhouse\\.io/([^/]+)",
    "jobs\\.greenhouse\\.io/([^/]+)",
    "jobs\\.ashbyhq\\.com/([^/]+)",
    "([^/]+)\\.bamboohr\\.com/jobs",
    "workday\\.([^/]+)\\.com/careers",
    "([^/]+)\\.workday\\.com/careers",
    "([^/]+)\\.recruitee\\.com",
    "([^/]+)\\.applytojob\\.com",
    "([^/]+)\\.breezy\\.hr",
    "([^/]+)\\.comeet\\.com/jobs",
    "([^/]+)\\.teamtailor\\.com",
    "([^/]+)\\.rippling-ats\\.com",
    "linkedin\\.com/company/([^/]+)/jobs",
    "indeed\\.com/cmp/([^/]+)/jobs",
    "smartrecruiters\\.com/([^/]+)"
  ]

  /** Career link-text patterns, as regular-expression source text, in
      priority order; grouped as in `career_page_url_finder.py`. */
  const BasicTexts: seq<string> := ["career", "job", "employment", "position", "vacanc", "opening", "opportunit"]
  const PhraseTexts: seq<string> := [
    "join(\\s+the)?\\s+team", "join\\s+us", "work\\s+(with|for)\\s+us",
    "we.?re\\s+hiring", "we\\s+are\\s+hiring",
    "apply\\s+(now|today)", "work\\s+at", "work\\s+for"]
  const ActionTexts: seq<string> := [
    "explore\\s+(job|career)", "find\\s+a\\s+(job|career)",
    "become\\s+part\\s+of", "apply\\s+for", "current\\s+(opening|position|vacanc)"]
  const CareerSpecificTexts: seq<string> := [
    "career\\s+path", "job\\s+search", "join\\s+our\\s+talent",
    "life\\s+at", "work\\s+life"]

  const LinkTexts: seq<string> := BasicTexts + PhraseTexts + ActionTexts + CareerSpecificTexts

  /** Navigation labels whose menu is hovered open, in order. */
  const NavLabels: seq<string> := ["company", "about", "about us", "team", "life", "work"]

  /** Signal words a probed subdomain page or a search landing page must contain. */
  const PageSignals: seq<string> := ["career", "job", "position", "opening", "opportunit", "vacanc"]

  /** Signal words a directly probed path must contain: the page signals plus two more. */
  const DirectSignals: seq<string> :=
    ["career", "job", "position", "opening", "opportunit", "work with us", "employ", "vacanc"]

  /** Suffixes appended to the company name to form the search queries, in order. */
  const QuerySuffixes: seq<string> := [" careers", " jobs", " hiring", " join team", " careers page"]

  /** Keyword lists of the job filter. */
  const RoleKeywords: seq<string> := ["product manager", "product owner", "product lead"]
  const SeniorityKeywords: seq<string> := ["senior", "group", "staff", "lead", "principal", "head"]
  const LocationKeywords: seq<string> := ["bangalore", "bengaluru", "india", "remote"]

  /** Marker the scraping agent is told to emit when a board has nothing relevant. */
  const NoJobsMarker: string := "NO_RELEVANT_JOBS_FOUND"

  /** The catalog sizes. */
  lemma CatalogSizes()
    ensures |UrlPatterns| == 61 && |SubdomainPatterns| == 13
    ensures |ThirdPartyPatterns| == 17 && |LinkTexts| == 25
  {
  }

  /** The repeated path entries, which the direct probe keeps. */
  lemma RepeatedPaths()
    ensures |UrlPatterns| == 61
    ensures UrlPatterns[13] == UrlPatterns[18] == UrlPatterns[52] == "/job-opportunities"
    ensures UrlPatterns[5] == UrlPatterns[22] == UrlPatterns[53] == "/job-openings"
    ensures UrlPatterns[15] == UrlPatterns[51] == "/career-opportunities"
  {
  }

  /** Every entry is a non-empty path starting with `/`. */
  predicate Rooted(paths: seq<string>) {
    forall k :: 0 <= k < |paths| ==> |paths[k]| > 0 && paths[k][0] == '/'
  }

  /** Rooted lists concatenate to a rooted list. */
  lemma RootedAppend(a: seq<string>, b: seq<string>)
    requires Rooted(a) && Rooted(b)
    ensures Rooted(a + b)
  {
    forall k | 0 <= k < |a + b| ensures |(a + b)[k]| > 0 && (a + b)[k][0] == '/' {
      if k >= |a| {
        assert (a + b)[k] == b[k - |a|];
      }
    }
  }

  /** Every path starts with `/`. */
  lemma PathsAreRooted()
    ensures forall k :: 0 <= k < |UrlPatterns| ==> |UrlPatterns[k]| > 0 && UrlPatterns[k][0] == '/'
  {
    assert Rooted(StandardPaths) && Rooted(OpportunityPaths) && Rooted(OpeningPaths);
    assert Rooted(CompanyPaths) && Rooted(AboutPaths) && Rooted(TeamPaths);
    assert Rooted(LifePaths) && Rooted(HrPaths) && Rooted(HyphenatedPaths) && Rooted(RegionalPaths);
    var p := StandardPaths;
    RootedAppend(p, OpportunityPaths); p := p + OpportunityPaths;
    RootedAppend(p, OpeningPaths); p := p + OpeningPaths;
    RootedAppend(p, CompanyPaths); p := p + CompanyPaths;
    RootedAppend(p, AboutPaths); p := p + AboutPaths;
    RootedAppend(p, TeamPaths); p := p + TeamPaths;
    RootedAppend(p, LifePaths); p := p + LifePaths;
    RootedAppend(p, HrPaths); p := p + HrPaths;
    RootedAppend(p, HyphenatedPaths); p := p + HyphenatedPaths;
    RootedAppend(p, RegionalPaths); p := p + RegionalPaths;
    assert p == UrlPatterns;
  }

  /** Subdomain labels are plain host labels: no `.` or `/`, and none begins
      with `ww`, so a candidate host never starts with `www.`. */
  lemma SubdomainLabelIsPlain(k: nat)
    requires k < |SubdomainPatterns|
    ensures var sub := SubdomainPatterns[k];
            |sub| >= 2 && '.' !in sub && '/' !in sub && (sub[0] != 'w' || sub[1] != 'w')
  {
  }
}

=== FILE: chain.dfy ===
/** The discovery strategy chain: strategies run in a fixed order and the
    first one that yields a URL ends the chain. Each run records which
    strategies were started, so "later strategies never run" is a property
    of the result. */
module Chain {
  import opened Wrappers
  import opened Strings
  import opened Catalogs
  import opened Urls
  import opened Probing
  import opened Pages

  /** The strategies, in chain order. The third-party scan is the start of
      `NavigationMenu`. */
  datatype Strategy = Subdomains | NavigationMenu | Footer | PageScan | DirectPaths | Search {
    function Rank(): nat {
      match this
      case Subdomains => 0
      case NavigationMenu => 1
      case Footer => 2
      case PageScan => 3
      case DirectPaths => 4
      case Search => 5
    }
  }

  /** The end of one company's discovery: a URL and the strategy that found
      it, a definitive miss, or an exception that escaped the chain. */
  datatype Outcome = Found(url: string, winner: Strategy) | NotFound | Crashed

  /** An outcome together with the strategies started, in the order started. */
  datatype Discovery = Discovery(outcome: Outcome, ran: seq<Strategy>)

  /** The collaborators one discovery talks to, as oracles: the network
      (`probe`), whether strategy 0's separate browser starts for a website
      (`launches`: both the launch and opening its page, the two steps outside
      any handler), the homepage as loaded, the search engine, and the regex
      matcher. One `probe` serves both strategy 0's browser and the main
      browser context of the direct paths: the model treats the two browsers,
      and their different user agents, as answering alike. */
  datatype Env = Env(
    probe: string -> Probe,
    launches: string -> bool,
    homepage: string -> HomeLoad,
    search: string -> Landing,
    matches: (string, string) -> bool)

  /** Strategies are started in strictly increasing chain order. */
  predicate InChainOrder(ran: seq<Strategy>) {
    forall i, j :: 0 <= i < j < |ran| ==> ran[i].Rank() < ran[j].Rank()
  }

  /** Strategy 0's three ways to end. */
  datatype SubdomainResult = NoCandidates | LaunchFails | Probed(run: ProbeRun)

  /** Strategy 0: no browser is launched when the website yields no
      candidates; a launch failure escapes; otherwise the candidates are
      probed in order against the page signals. */
  function SubdomainStrategy(env: Env, base: string): (s: SubdomainResult)
    ensures s.NoCandidates? <==> HostOf(base).None?
    ensures s.LaunchFails? <==> HostOf(base).Some? && !env.launches(base)
    ensures s.Probed? ==> s.run == FirstAccepted(SubdomainCandidates(base).value, env.probe, PageSignals)
  {
    match SubdomainCandidates(base)
    case None => NoCandidates
    case Some(cs) =>
      if !env.launches(base) then LaunchFails
      else Probed(FirstAccepted(cs, env.probe, PageSignals))
  }

  /** Every strategy in `ran` has a rank in `lo..hi`. */
  predicate RanksWithin(ran: seq<Strategy>, lo: nat, hi: nat) {
    forall i :: 0 <= i < |ran| ==> lo <= ran[i].Rank() <= hi
  }

  /** Two ordered traces whose ranks do not overlap concatenate to an ordered trace. */
  lemma OrderedAppend(a: seq<Strategy>, b: seq<Strategy>, mid: nat)
    requires InChainOrder(a) && InChainOrder(b)
    requires RanksWithin(a, 0, mid) && RanksWithin(b, mid + 1, 5)
    ensures InChainOrder(a + b)
  {
    forall i, j | 0 <= i < j < |a + b| ensures (a + b)[i].Rank() < (a + b)[j].Rank() {
      if j < |a| {
        assert (a + b)[i] == a[i] && (a + b)[j] == a[j];
      } else if i >= |a| {
        assert (a + b)[i] == b[i - |a|] && (a + b)[j] == b[j - |a|];
      } else {
        assert (a + b)[i] == a[i] && (a + b)[j] == b[j - |a|];
      }
    }
  }

  /** What strategies 1 to 3 guarantee about their result. */
  predicate HomepageShaped(d: Discovery) {
    && |d.ran| >= 1 && d.ran[0] == NavigationMenu && InChainOrder(d.ran)
    && RanksWithin(d.ran, 1, 3)
    && !d.outcome.Crashed?
    && (d.outcome.Found? ==> d.ran[|d.ran| - 1] == d.outcome.winner)
  }

  /** How strategies 1 to 3 combine the results of their scans: the
      third-party scan first, then the navigation scan, the footer scan and
      the whole-page scan, each consulted only when all before it missed
      without an exception. */
  function CombineHomepage(thirdParty: Option<string>, nav: ScanOutcome,
                           foot: ScanOutcome, all: ScanOutcome): (d: Discovery)
    ensures HomepageShaped(d)
    ensures d.outcome.Found? <==>
              thirdParty.Some? || nav.Hit? || (nav == Miss && (foot.Hit? || (foot == Miss && all.Hit?)))
    ensures thirdParty.Some? ==> d == Discovery(Found(thirdParty.value, NavigationMenu), [NavigationMenu])
    ensures Footer in d.ran <==> thirdParty.None? && nav == Miss
    ensures PageScan in d.ran <==> thirdParty.None? && nav == Miss && foot == Miss
    ensures d.outcome.Found? && d.outcome.winner == NavigationMenu && thirdParty.None? ==> nav == Hit(d.outcome.url)
    ensures d.outcome.Found? && d.outcome.winner == Footer ==> foot == Hit(d.outcome.url)
    ensures d.outcome.Found? && d.outcome.winner == PageScan ==> all == Hit(d.outcome.url)
  {
    if thirdParty.Some? then Discovery(Found(thirdParty.value, NavigationMenu), [NavigationMenu])
    else if nav.Hit? then Discovery(Found(nav.url, NavigationMenu), [NavigationMenu])
    else if nav.Raised? then Discovery(NotFound, [NavigationMenu])
    else if foot.Hit? then Discovery(Found(foot.url, Footer), [NavigationMenu, Footer])
    else if foot.Raised? then Discovery(NotFound, [NavigationMenu, Footer])
    else if all.Hit? then Discovery(Found(all.url, PageScan), [NavigationMenu, Footer, PageScan])
    else Discovery(NotFound, [NavigationMenu, Footer, PageScan])
  }

  /** Strategies 1 to 3, which share one exception handler: a failing load,
      hover or href read ends all three at once. The result is never
      `Crashed`; `NotFound` covers both exhaustion and an exception. */
  function HomepageStrategies(home: HomeLoad, base: string,
                              matches: (string, string) -> bool): (d: Discovery)
    ensures HomepageShaped(d)
    ensures home.LoadFails? ==> d == Discovery(NotFound, [NavigationMenu])
    ensures home.Loaded? ==>
              d == CombineHomepage(ThirdPartyScan(home.page.links, matches), NavScan(home.page, base, matches),
                                   LinkTextScan(home.page.footerLinks, base, matches),
                                   LinkTextScan(home.page.links, base, matches))
  {
    match home
    case LoadFails => Discovery(NotFound, [NavigationMenu])
    case Loaded(page) =>
      CombineHomepage(ThirdPartyScan(page.links, matches), NavScan(page, base, matches),
                      LinkTextScan(page.footerLinks, base, matches), LinkTextScan(page.links, base, matches))
  }

  /** Strategies 4 and 5: direct paths, then the search fallback when no
      direct path was accepted. */
  function CombineTail(direct: ProbeRun, searched: Option<string>): (d: Discovery)
    ensures |d.ran| >= 1 && d.ran[0] == DirectPaths && InChainOrder(d.ran) && RanksWithin(d.ran, 4, 5)
    ensures !d.outcome.Crashed?
    ensures d.outcome.Found? ==> d.ran[|d.ran| - 1] == d.outcome.winner
    ensures direct.found.Some? ==> d == Discovery(Found(direct.found.value, DirectPaths), [DirectPaths])
    ensures direct.found.None? ==> d.ran == [DirectPaths, Search]
    ensures d.outcome == NotFound <==> direct.found.None? && searched.None?
    ensures d.outcome.Found? && d.outcome.winner == Search ==> searched == Some(d.outcome.url)
  {
    if direct.found.Some? then Discovery(Found(direct.found.value, DirectPaths), [DirectPaths])
    else Discovery(if searched.Some? then Found(searched.value, Search) else NotFound, [DirectPaths, Search])
  }

  /** Strategies 1 to 5 after strategy 0 came back empty: the tail runs only
      when strategies 1 to 3 found nothing. */
  function CombineAfterSubdomains(home: Discovery, tail: Discovery): (d: Discovery)
    requires HomepageShaped(home)
    requires |tail.ran| >= 1 && tail.ran[0] == DirectPaths && InChainOrder(tail.ran) && RanksWithin(tail.ran, 4, 5)
    requires !tail.outcome.Crashed? && (tail.outcome.Found? ==> tail.ran[|tail.ran| - 1] == tail.outcome.winner)
    ensures |d.ran| >= 1 && d.ran[0] == NavigationMenu && InChainOrder(d.ran) && RanksWithin(d.ran, 1, 5)
    ensures !d.outcome.Crashed?
    ensures d.outcome.Found? ==> d.ran[|d.ran| - 1] == d.outcome.winner
    ensures home.outcome.Found? ==> d == home
    ensures !home.outcome.Found? ==> d == Discovery(tail.outcome, home.ran + tail.ran)
  {
    if home.outcome.Found? then home
    else
      OrderedAppend(home.ran, tail.ran, 3);
      Discovery(tail.outcome, home.ran + tail.ran)
  }

  /** The chain as a whole: strategy 0, and the rest only when it found
      nothing without an exception. */
  function CombineChain(sub: SubdomainResult, rest: Discovery): (d: Discovery)
    requires |rest.ran| >= 1 && InChainOrder(rest.ran) && RanksWithin(rest.ran, 1, 5)
    requires !rest.outcome.Crashed? && (rest.outcome.Found? ==> rest.ran[|rest.ran| - 1] == rest.outcome.winner)
    ensures |d.ran| >= 1 && d.ran[0] == Subdomains && InChainOrder(d.ran)
    ensures d.outcome.Found? ==> d.ran[|d.ran| - 1] == d.outcome.winner
    ensures d.outcome.Crashed? <==> sub.LaunchFails?
    ensures sub.LaunchFails? ==> d.ran == [Subdomains]
    ensures sub.Probed? && sub.run.found.Some? ==>
              d == Discovery(Found(sub.run.found.value, Subdomains), [Subdomains])
    ensures !sub.LaunchFails? && !(sub.Probed? && sub.run.found.Some?) ==>
              d == Discovery(rest.outcome, [Subdomains] + rest.ran)
  {
    if sub.LaunchFails? then Discovery(Crashed, [Subdomains])
    else if sub.Probed? && sub.run.found.Some? then Discovery(Found(sub.run.found.value, Subdomains), [Subdomains])
    else
      OrderedAppend([Subdomains], rest.ran, 0);
      Discovery(rest.outcome, [Subdomains] + rest.ran)
  }

  /** Strategy 0 found a URL. */
  predicate SubdomainHit(sub: SubdomainResult) {
    sub.Probed? && sub.run.found.Some?
  }

  /** Strategies 1 to 5, run when strategy 0 came back empty. */
  function AfterSubdomains(env: Env, base: string, name: string): (d: Discovery)
    ensures |d.ran| >= 1 && d.ran[0] == NavigationMenu && InChainOrder(d.ran) && RanksWithin(d.ran, 1, 5)
    ensures !d.outcome.Crashed?
    ensures d.outcome.Found? ==> d.ran[|d.ran| - 1] == d.outcome.winner
    ensures var home := HomepageStrategies(env.homepage(base), base, env.matches);
            home.outcome.Found? ==> d == home
    ensures var home := HomepageStrategies(env.homepage(base), base, env.matches);
            var tail := CombineTail(FirstAccepted(DirectCandidates(base), env.probe, DirectSignals),
                                    SearchStrategy(name, env.search));
            !home.outcome.Found? ==> d.outcome == tail.outcome && d.ran == home.ran + tail.ran
  {
    var home := HomepageStrategies(env.homepage(base), base, env.matches);
    var tail := CombineTail(FirstAccepted(DirectCandidates(base), env.probe, DirectSignals),
                            SearchStrategy(name, env.search));
    CombineAfterSubdomains(home, tail)
  }

  /** The whole chain for one company website `base` and company `name`. */
  function Discover(env: Env, base: string, name: string): (d: Discovery)
    ensures |d.ran| >= 1 && d.ran[0] == Subdomains && InChainOrder(d.ran)
    ensures d.outcome.Found? ==> d.ran[|d.ran| - 1] == d.outcome.winner
    ensures d.outcome.Crashed? <==> SubdomainStrategy(env, base).LaunchFails?
    ensures SubdomainStrategy(env, base).LaunchFails? ==> d.ran == [Subdomains]
    ensures SubdomainHit(SubdomainStrategy(env, base)) ==>
              d == Discovery(Found(SubdomainStrategy(env, base).run.found.value, Subdomains), [Subdomains])
    ensures !SubdomainStrategy(env, base).LaunchFails? && !SubdomainHit(SubdomainStrategy(env, base)) ==>
              d.outcome == AfterSubdomains(env, base, name).outcome
              && d.ran == [Subdomains] + AfterSubdomains(env, base, name).ran
  {
    CombineChain(SubdomainStrategy(env, base), AfterSubdomains(env, base, name))
  }

  /** Short circuit: once a strategy finds a URL, no later strategy runs. */
  lemma DiscoverShortCircuit(env: Env, base: string, name: string)
    ensures var d := Discover(env, base, name);
            d.outcome.Found? ==> forall i :: 0 <= i < |d.ran| ==> d.ran[i].Rank() <= d.outcome.winner.Rank()
  {
    var d := Discover(env, base, name);
    if d.outcome.Found? {
      forall i | 0 <= i < |d.ran| ensures d.ran[i].Rank() <= d.outcome.winner.Rank() {
        if i < |d.ran| - 1 {
          assert d.ran[i].Rank() < d.ran[|d.ran| - 1].Rank();
        }
      }
    }
  }

  /** A job-board link anywhere among the homepage's links beats every
      internal page: once strategy 0 comes back empty, its raw href is the
      result, whatever the direct paths or the search would have given. */
  lemma ThirdPartyTakesPrecedence(env: Env, base: string, name: string)
    requires !SubdomainStrategy(env, base).LaunchFails? && !SubdomainHit(SubdomainStrategy(env, base))
    requires env.homepage(base).Loaded?
    requires ThirdPartyScan(env.homepage(base).page.links, env.matches).Some?
    ensures Discover(env, base, name)
            == Discovery(Found(ThirdPartyScan(env.homepage(base).page.links, env.matches).value, NavigationMenu),
                         [Subdomains, NavigationMenu])
  {
  }

  /** Strategies 1 to 3 share one exception handler: when the homepage fails
      to load, or the navigation scan raises, the footer and whole-page scans
      are skipped and the chain resumes at the direct paths. */
  lemma HomepageExceptionSkipsToDirectPaths(env: Env, base: string, name: string)
    requires !SubdomainStrategy(env, base).LaunchFails? && !SubdomainHit(SubdomainStrategy(env, base))
    requires var home := env.homepage(base);
             home.LoadFails?
             || (ThirdPartyScan(home.page.links, env.matches).None?
                 && NavScan(home.page, base, env.matches) == Raised)
    ensures var d := Discover(env, base, name);
            Footer !in d.ran && PageScan !in d.ran && DirectPaths in d.ran
            && d.ran[..3] == [Subdomains, NavigationMenu, DirectPaths]
  {
    var home := HomepageStrategies(env.homepage(base), base, env.matches);
    assert home.ran == [NavigationMenu];
  }

  /** Exhaustion is a definitive miss, not an error: the chain ends in
      `NotFound` exactly when strategy 0 ran without finding anything and
      every later strategy came back empty. */
  lemma NotFoundExactlyWhenAllFail(env: Env, base: string, name: string)
    ensures Discover(env, base, name).outcome == NotFound <==>
              && !SubdomainStrategy(env, base).LaunchFails?
              && !SubdomainHit(SubdomainStrategy(env, base))
              && !HomepageStrategies(env.homepage(base), base, env.matches).outcome.Found?
              && FirstAccepted(DirectCandidates(base), env.probe, DirectSignals).found.None?
              && SearchStrategy(name, env.search).None?
  {
  }

  /** A URL found by subdomain probing is one of the `https://` candidates. */
  lemma SubdomainHitIsAbsolute(env: Env, base: string)
    requires SubdomainHit(SubdomainStrategy(env, base))
    ensures Https <= SubdomainStrategy(env, base).run.found.value
  {
    var run := SubdomainStrategy(env, base).run;
    var cs := SubdomainCandidates(base).value;
    var n := |run.probed|;
    assert run.probed <= cs && n > 0;
    assert run.found.value == cs[n - 1];
  }

  /** A URL found by a link-text scan of strategies 1 to 3 is scheme-qualified. */
  lemma HomepageHitIsAbsolute(home: HomeLoad, base: string, matches: (string, string) -> bool)
    requires HasHost(base)
    ensures home.Loaded? && ThirdPartyScan(home.page.links, matches).None?
            && HomepageStrategies(home, base, matches).outcome.Found?
            ==> HasHttpScheme(HomepageStrategies(home, base, matches).outcome.url)
  {
    var d := HomepageStrategies(home, base, matches);
    if !home.Loaded? || ThirdPartyScan(home.page.links, matches).Some? || !d.outcome.Found? {
    } else if d.outcome.winner == NavigationMenu {
      var page := home.page;
      NavHitIsAbsolute(page, base, matches);
    } else if d.outcome.winner == Footer {
      LinkTextHitIsAbsolute(home.page.footerLinks, base, matches);
    } else {
      LinkTextHitIsAbsolute(home.page.links, base, matches);
    }
  }

  /** A URL found by direct probing is one of the scheme-qualified candidates. */
  lemma DirectHitIsAbsolute(base: string, probe: string -> Probe)
    requires HasHost(base)
    requires FirstAccepted(DirectCandidates(base), probe, DirectSignals).found.Some?
    ensures HasHttpScheme(FirstAccepted(DirectCandidates(base), probe, DirectSignals).found.value)
  {
    var run := FirstAccepted(DirectCandidates(base), probe, DirectSignals);
    DirectCandidatesOnSite(base);
    assert run.found.value == DirectCandidates(base)[|run.probed| - 1];
  }

  /** Against a website with a host, every URL found by subdomain probing,
      a link-text scan or a direct path is scheme-qualified. Raw third-party
      hrefs and search landing URLs are returned as given. */
  lemma FoundUrlIsAbsolute(env: Env, base: string, name: string)
    requires HasHost(base)
    ensures var d := Discover(env, base, name);
            d.outcome.Found? && d.outcome.winner != Search
            && (d.outcome.winner == NavigationMenu ==>
                  env.homepage(base).Loaded?
                  && ThirdPartyScan(env.homepage(base).page.links, env.matches).None?)
            ==> HasHttpScheme(d.outcome.url)
  {
    var sub := SubdomainStrategy(env, base);
    var home := HomepageStrategies(env.homepage(base), base, env.matches);
    var run := FirstAccepted(DirectCandidates(base), env.probe, DirectSignals);
    if SubdomainHit(sub) {
      SubdomainHitIsAbsolute(env, base);
    } else if home.outcome.Found? {
      if env.homepage(base).Loaded? && ThirdPartyScan(env.homepage(base).page.links, env.matches).None? {
        HomepageHitIsAbsolute(env.homepage(base), base, env.matches);
      }
    } else if run.found.Some? {
      DirectHitIsAbsolute(base, env.probe);
    }
  }
}

=== FILE: jobboards.dfy ===
/** Selecting job-board rows from the sheet and mapping the browsing agent's
    outcome for one board to a result record. */
module JobBoards {
  import opened Strings
  import opened Catalogs
  import opened Urls
  import opened Values

  /** One job board: the first cell of its row and the board URL. */
  datatype JobBoard = JobBoard(company: Value, url: string)

  /** A row is selected when its last cell is a string with an http(s) scheme. */
  predicate IsBoardRow(row: seq<Value>) {
    |row| >= 1 && row[|row| - 1].Str? && HasHttpScheme(row[|row| - 1].s)
  }

  /** The board a selected row describes. */
  function BoardOf(row: seq<Value>): JobBoard
    requires IsBoardRow(row)
  {
    JobBoard(row[0], row[|row| - 1].s)
  }

  /** `b` is the board of some selected row of `rows`. */
  predicate FromBoardRow(b: JobBoard, rows: seq<seq<Value>>) {
    exists i :: 0 <= i < |rows| && IsBoardRow(rows[i]) && b == BoardOf(rows[i])
  }

  /** A board of a selected row of the tail is a board of a selected row. */
  lemma FromBoardRowTail(b: JobBoard, rows: seq<seq<Value>>)
    requires |rows| >= 1 && FromBoardRow(b, rows[1..])
    ensures FromBoardRow(b, rows)
  {
    var i :| 0 <= i < |rows[1..]| && IsBoardRow(rows[1..][i]) && b == BoardOf(rows[1..][i]);
    assert rows[i + 1] == rows[1..][i];
  }

  /** The boards of the selected rows, in row order. Every row of a sheet has
      at least one cell. */
  function LoadJobBoards(rows: seq<seq<Value>>): (boards: seq<JobBoard>)
    requires forall i :: 0 <= i < |rows| ==> |rows[i]| >= 1
    ensures |boards| <= |rows|
    ensures forall k :: 0 <= k < |boards| ==> HasHttpScheme(boards[k].url)
    ensures forall i :: 0 <= i < |rows| && IsBoardRow(rows[i]) ==> BoardOf(rows[i]) in boards
    ensures forall k :: 0 <= k < |boards| ==> FromBoardRow(boards[k], rows)
    decreases |rows|
  {
    if |rows| == 0 then []
    else
      var rest := LoadJobBoards(rows[1..]);
      assert forall i :: 1 <= i < |rows| ==> rows[i] == rows[1..][i - 1];
      assert forall k :: 0 <= k < |rest| ==> FromBoardRow(rest[k], rows) by {
        forall k | 0 <= k < |rest| ensures FromBoardRow(rest[k], rows) {
          FromBoardRowTail(rest[k], rows);
        }
      }
      if IsBoardRow(rows[0]) then
        assert FromBoardRow(BoardOf(rows[0]), rows);
        [BoardOf(rows[0])] + rest
      else rest
  }

  /** Loading distributes over concatenation, so boards keep row order. */
  lemma {:induction false} LoadJobBoardsAppend(a: seq<seq<Value>>, b: seq<seq<Value>>)
    requires forall i :: 0 <= i < |a| ==> |a[i]| >= 1
    requires forall i :: 0 <= i < |b| ==> |b[i]| >= 1
    ensures LoadJobBoards(a + b) == LoadJobBoards(a) + LoadJobBoards(b)
    decreases |a|
  {
    if |a| == 0 {
      assert a + b == b;
    } else {
      assert (a + b)[1..] == a[1..] + b;
      LoadJobBoardsAppend(a[1..], b);
    }
  }

  /** A single row yields its board exactly when it is selected. */
  lemma LoadJobBoardsSingle(row: seq<Value>)
    requires |row| >= 1
    ensures IsBoardRow(row) ==> LoadJobBoards([row]) == [BoardOf(row)]
    ensures !IsBoardRow(row) ==> LoadJobBoards([row]) == []
  {
    assert [row][1..] == [];
  }

  /** How the agent's run on one board ended: with a final text, by the
      overall timeout, or with any other exception (including building the
      runner). */
  datatype AgentRun = Finished(text: string) | TimedOut | Failed

  /** The record kept for one board. */
  datatype ScrapeResult = ScrapeResult(company: Value, sourceUrl: string, result: string)

  /** The empty JSON array returned when there is nothing to parse. */
  const EmptyResult: string := "[]"

  /** The result string is the agent's text when it finished without the
      no-jobs marker, and the empty array otherwise. */
  function ScrapeJobBoard(board: JobBoard, run: AgentRun): (r: ScrapeResult)
    ensures r.company == board.company && r.sourceUrl == board.url
    ensures run.Finished? && !Contains(run.text, NoJobsMarker) ==> r.result == run.text
    ensures !run.Finished? || Contains(run.text, NoJobsMarker) ==> r.result == EmptyResult
  {
    var result :=
      match run
      case Finished(text) => if Contains(text, NoJobsMarker) then EmptyResult else text
      case TimedOut => EmptyResult
      case Failed => EmptyResult;
    ScrapeResult(board.company, board.url, result)
  }

  /** A word longer than the text never occurs in it. */
  lemma {:induction false} ContainsNeedsRoom(s: string, w: string)
    requires |w| > |s|
    ensures !Contains(s, w)
    decreases |s|
  {
    if |s| > 0 {
      ContainsNeedsRoom(s[1..], w);
    }
  }

  /** No recorded result carries the no-jobs marker. */
  lemma ResultNeverMarked(board: JobBoard, run: AgentRun)
    ensures !Contains(ScrapeJobBoard(board, run).result, NoJobsMarker)
  {
    ContainsNeedsRoom(EmptyResult, NoJobsMarker);
  }

  /** Feeding a recorded result back as the agent's text records it again:
      the mapping is idempotent. */
  lemma ScrapeIdempotent(board: JobBoard, run: AgentRun)
    ensures var r := ScrapeJobBoard(board, run);
            ScrapeJobBoard(board, Finished(r.result)) == r
  {
    ResultNeverMarked(board, run);
  }
}

=== FILE: jobresults.dfy ===
/** Turning the recorded agent results into job dictionaries and keeping the
    jobs that match the role, seniority and location keywords. */
module JobResults {
  import opened Seqs
  import opened Strings
  import opened Catalogs
  import opened Values
  import opened JobBoards

  /** One job: a decoded JSON object. */
  type Job = map<string, Value>

  /** One JSON-looking substring of a result text: it fails to decode, or
      decodes to a value. */
  datatype Candidate = Undecodable | Decoded(value: Value)

  /** A value that is an object with a `title` key. */
  predicate Titled(v: Value) {
    v.Dict? && "title" in v.fields
  }

  /** Stamp an extracted job with its origin: an existing `company` is kept,
      a missing one is taken from the result, and `source_url` is always
      overwritten. */
  function Stamp(job: Job, company: Value, url: string): (j: Job)
    ensures j.Keys == job.Keys + {"company", "source_url"}
    ensures "company" in job ==> j["company"] == job["company"]
    ensures "company" !in job ==> j["company"] == company
    ensures j["source_url"] == Str(url)
    ensures forall k :: k in job && k != "company" && k != "source_url" ==> j[k] == job[k]
  {
    var c := if "company" in job then job["company"] else company;
    job["company" := c]["source_url" := Str(url)]
  }

  /** The titled objects of a list, stamped, in list order. */
  function StampTitled(items: seq<Value>, company: Value, url: string): (jobs: seq<Job>)
    ensures |jobs| <= |items|
    ensures forall k :: 0 <= k < |jobs| ==>
              "title" in jobs[k] && "company" in jobs[k] && "source_url" in jobs[k]
              && jobs[k]["source_url"] == Str(url)
    decreases |items|
  {
    if |items| == 0 then []
    else
      var rest := StampTitled(items[1..], company, url);
      assert forall i :: 1 <= i < |items| ==> items[i] == items[1..][i - 1];
      if Titled(items[0]) then [Stamp(items[0].fields, company, url)] + rest else rest
  }

  /** Stamping titled objects is stamping each element of the titled filter
      of the list, in order. */
  lemma {:induction false} StampTitledIsFilter(items: seq<Value>, company: Value, url: string)
    ensures |StampTitled(items, company, url)| == |Filter(items, Titled)|
    ensures forall k :: 0 <= k < |Filter(items, Titled)| ==>
              Filter(items, Titled)[k].Dict?
              && StampTitled(items, company, url)[k] == Stamp(Filter(items, Titled)[k].fields, company, url)
    decreases |items|
  {
    if |items| > 0 {
      StampTitledIsFilter(items[1..], company, url);
      var t := Filter(items[1..], Titled);
      var js := StampTitled(items[1..], company, url);
      var all := Filter(items, Titled);
      var stamped := StampTitled(items, company, url);
      if Titled(items[0]) {
        assert all == [items[0]] + t;
        assert stamped == [Stamp(items[0].fields, company, url)] + js;
        forall k | 0 <= k < |all|
          ensures all[k].Dict? && stamped[k] == Stamp(all[k].fields, company, url)
        {
          if k > 0 {
            assert all[k] == t[k - 1] && stamped[k] == js[k - 1];
          }
        }
      } else {
        assert all == t;
        assert stamped == js;
      }
    }
  }

  /** The object holds a list under `jobs`. */
  predicate HasJobList(f: map<string, Value>) {
    "jobs" in f && f["jobs"].List?
  }

  /** The jobs one decoded value contributes: a list gives its titled
      objects; an object with a list under `jobs` gives that list's titled
      objects and not itself; any other titled object gives itself; anything
      else gives nothing. */
  function JobsFrom(v: Value, company: Value, url: string): (jobs: seq<Job>)
    ensures v.List? ==> jobs == StampTitled(v.items, company, url)
    ensures v.Dict? && HasJobList(v.fields) ==> jobs == StampTitled(v.fields["jobs"].items, company, url)
    ensures v.Dict? && !HasJobList(v.fields) && Titled(v) ==> jobs == [Stamp(v.fields, company, url)]
    ensures !v.List? && !(v.Dict? && HasJobList(v.fields)) && !Titled(v) ==> jobs == []
  {
    match v
    case List(items) => StampTitled(items, company, url)
    case Dict(f) =>
      if HasJobList(f) then StampTitled(f["jobs"].items, company, url)
      else if "title" in f then [Stamp(f, company, url)]
      else []
    case _ => []
  }

  /** Every contributed job has a title, a company and the result's source URL. */
  lemma JobsFromStamped(v: Value, company: Value, url: string)
    ensures forall k :: 0 <= k < |JobsFrom(v, company, url)| ==>
              var j := JobsFrom(v, company, url)[k];
              "title" in j && "company" in j && "source_url" in j && j["source_url"] == Str(url)
  {
  }

  /** The jobs of a result's candidates, candidate by candidate. */
  function CandidateJobs(cands: seq<Candidate>, company: Value, url: string): (jobs: seq<Job>)
    ensures forall k :: 0 <= k < |jobs| ==>
              "title" in jobs[k] && "company" in jobs[k] && "source_url" in jobs[k]
              && jobs[k]["source_url"] == Str(url)
    decreases |cands|
  {
    if |cands| == 0 then []
    else
      var rest := CandidateJobs(cands[1..], company, url);
      match cands[0]
      case Undecodable => rest
      case Decoded(v) =>
        JobsFromStamped(v, company, url);
        JobsFrom(v, company, url) + rest
  }

  /** The jobs of all results, result by result; `decode` stands for finding
      the JSON-looking substrings of a result text and decoding each. */
  function ExtractJobs(results: seq<ScrapeResult>, decode: string -> seq<Candidate>): (jobs: seq<Job>)
    ensures forall k :: 0 <= k < |jobs| ==>
              "title" in jobs[k] && "company" in jobs[k] && "source_url" in jobs[k]
              && exists i :: 0 <= i < |results| && jobs[k]["source_url"] == Str(results[i].sourceUrl)
    decreases |results|
  {
    if |results| == 0 then []
    else
      var r := results[0];
      var rest := ExtractJobs(results[1..], decode);
      assert forall i :: 1 <= i < |results| ==> results[i] == results[1..][i - 1];
      CandidateJobs(decode(r.result), r.company, r.sourceUrl) + rest
  }

  /** One candidate: an undecodable one contributes nothing, a decoded one
      exactly the jobs of its value. */
  lemma CandidateJobsSingle(c: Candidate, company: Value, url: string)
    ensures c.Undecodable? ==> CandidateJobs([c], company, url) == []
    ensures c.Decoded? ==> CandidateJobs([c], company, url) == JobsFrom(c.value, company, url)
  {
    assert [c][1..] == [];
  }

  /** One result contributes the jobs of its decoded candidates, stamped with
      its company and source URL. */
  lemma ExtractJobsSingle(r: ScrapeResult, decode: string -> seq<Candidate>)
    ensures ExtractJobs([r], decode) == CandidateJobs(decode(r.result), r.company, r.sourceUrl)
  {
    assert [r][1..] == [];
  }

  /** Extraction distributes over concatenation: jobs appear in result order. */
  lemma {:induction false} ExtractJobsAppend(a: seq<ScrapeResult>, b: seq<ScrapeResult>, decode: string -> seq<Candidate>)
    ensures ExtractJobs(a + b, decode) == ExtractJobs(a, decode) + ExtractJobs(b, decode)
    decreases |a|
  {
    if |a| == 0 {
      assert a + b == b;
    } else {
      assert (a + b)[1..] == a[1..] + b;
      ExtractJobsAppend(a[1..], b, decode);
    }
  }

  /** Candidate jobs distribute over concatenation: jobs appear in candidate order. */
  lemma {:induction false} CandidateJobsAppend(a: seq<Candidate>, b: seq<Candidate>, company: Value, url: string)
    ensures CandidateJobs(a + b, company, url) == CandidateJobs(a, company, url) + CandidateJobs(b, company, url)
    decreases |a|
  {
    if |a| == 0 {
      assert a + b == b;
    } else {
      assert (a + b)[1..] == a[1..] + b;
      CandidateJobsAppend(a[1..], b, company, url);
    }
  }

  /** A filter field is absent or a string; anything else makes `.lower()` raise. */
  predicate TextOrAbsent(job: Job, key: string) {
    key !in job || job[key].Str?
  }

  /** The filter can read all three of its fields. */
  predicate Filterable(job: Job) {
    TextOrAbsent(job, "title") && TextOrAbsent(job, "description") && TextOrAbsent(job, "location")
  }

  /** `job.get(key, '')` for a field that is a string or absent. */
  function TextField(job: Job, key: string): (t: string)
    requires TextOrAbsent(job, key)
    ensures key !in job ==> t == ""
    ensures key in job ==> Str(t) == job[key]
  {
    if key in job then job[key].s else ""
  }

  /** The three-way keyword test, on fields lowered once when read and once
      more when tested. */
  predicate Relevant(job: Job)
    requires Filterable(job)
  {
    var title := Lower(TextField(job, "title"));
    var description := Lower(TextField(job, "description"));
    var location := Lower(TextField(job, "location"));
    HasSignal(title, RoleKeywords)
    && HasSignal(title, SeniorityKeywords)
    && exists k :: 0 <= k < |LocationKeywords|
         && (Contains(Lower(location), LocationKeywords[k]) || Contains(Lower(description), LocationKeywords[k]))
  }

  /** The job passes the filter. */
  predicate Keep(job: Job) {
    Filterable(job) && Relevant(job)
  }

  /** The same test on the raw fields lowered once: lowering twice changes nothing. */
  lemma RelevantOnRawFields(job: Job)
    requires Filterable(job)
    ensures Relevant(job) <==>
              var title := TextField(job, "title");
              HasSignal(title, RoleKeywords)
              && HasSignal(title, SeniorityKeywords)
              && (HasSignal(TextField(job, "location"), LocationKeywords)
                  || HasSignal(TextField(job, "description"), LocationKeywords))
  {
    LowerIdempotent(TextField(job, "title"));
    LowerIdempotent(TextField(job, "description"));
    LowerIdempotent(TextField(job, "location"));
  }

  /** The filter's result: an exception escaped it, or the kept jobs. */
  datatype FilterResult = Crashed | Kept(jobs: seq<Job>)

  /** Keep the relevant jobs in order; a job whose title, description or
      location is present but not a string makes the whole filter raise. */
  function KeywordFilter(jobs: seq<Job>): (r: FilterResult)
    ensures r.Crashed? <==> exists i :: 0 <= i < |jobs| && !Filterable(jobs[i])
    ensures r.Kept? ==>
              IsSubsequence(r.jobs, jobs)
              && (forall k :: 0 <= k < |r.jobs| ==> Filterable(r.jobs[k]) && Relevant(r.jobs[k]))
              && (forall i :: 0 <= i < |jobs| && Keep(jobs[i]) ==> jobs[i] in r.jobs)
    ensures r.Kept? ==> forall x :: multiset(r.jobs)[x] == if Keep(x) then multiset(jobs)[x] else 0
  {
    FilterMultiset(jobs, Keep);
    if forall i :: 0 <= i < |jobs| ==> Filterable(jobs[i]) then Kept(Filter(jobs, Keep))
    else Crashed
  }

  /** Filtering the kept jobs again keeps all of them. */
  lemma KeywordFilterIdempotent(jobs: seq<Job>)
    requires KeywordFilter(jobs).Kept?
    ensures KeywordFilter(KeywordFilter(jobs).jobs) == KeywordFilter(jobs)
  {
    FilterIdempotent(jobs, Keep);
  }

  /** Filtering distributes over concatenation when neither part crashes. */
  lemma KeywordFilterAppend(a: seq<Job>, b: seq<Job>)
    requires KeywordFilter(a).Kept? && KeywordFilter(b).Kept?
    ensures KeywordFilter(a + b) == Kept(KeywordFilter(a).jobs + KeywordFilter(b).jobs)
  {
    FilterAppend(a, b, Keep);
    forall i | 0 <= i < |a + b| ensures Filterable((a + b)[i]) {
      if i >= |a| {
        assert (a + b)[i] == b[i - |a|];
      }
    }
  }

  /** Parse every recorded result and keep the matching jobs. */
  function ParseJobResults(results: seq<ScrapeResult>, decode: string -> seq<Candidate>): (r: FilterResult)
    ensures r.Kept? ==> IsSubsequence(r.jobs, ExtractJobs(results, decode))
    ensures r.Kept? ==> forall k :: 0 <= k < |r.jobs| ==> Keep(r.jobs[k])
    ensures r.Kept? ==> forall i :: 0 <= i < |ExtractJobs(results, decode)| && Keep(ExtractJobs(results, decode)[i]) ==>
              ExtractJobs(results, decode)[i] in r.jobs
    ensures r.Kept? ==> forall x :: multiset(r.jobs)[x] == if Keep(x) then multiset(ExtractJobs(results, decode))[x] else 0
    ensures r.Crashed? ==> exists i :: 0 <= i < |ExtractJobs(results, decode)| && !Filterable(ExtractJobs(results, decode)[i])
    ensures (exists i :: 0 <= i < |ExtractJobs(results, decode)| && !Filterable(ExtractJobs(results, decode)[i])) ==> r.Crashed?
  {
    var jobs := ExtractJobs(results, decode);
    KeywordFilter(jobs)
  }
}

=== FILE: pages.dfy ===
/** The homepage as the link-scanning strategies see it, and the scans
    themselves: the third-party job-board scan, the link-text scan shared by
    the navigation, footer and whole-page strategies, and the navigation-menu
    scan. Regular-expression matching is an opaque oracle `matches(pattern,
    subject)`, standing for a case-insensitive `re.search`. */
module Pages {
  import opened Wrappers
  import opened Seqs
  import opened Strings
  import opened Catalogs
  import opened Urls

  /** Reading a link's `href` attribute: absent, a value, or an exception. */
  datatype Href = NoHref | Href(value: string) | HrefFails

  /** A link element: its visible text and its `href` attribute. */
  datatype Link = Link(text: string, href: Href)

  /** Hovering a navigation link: an exception, or the links visible afterwards. */
  datatype Hover = HoverFails | Revealed(links: seq<Link>)

  /** A loaded homepage: every link in document order, the links inside its
      footer elements (empty when it has none), and what hovering the first
      link labelled with a navigation label reveals. */
  datatype Page = Page(links: seq<Link>, footerLinks: seq<Link>, hover: string -> Hover)

  /** Loading the homepage (navigation plus network-idle wait): an exception
      or timeout, or the page. A 4xx/5xx page is still a loaded page. */
  datatype HomeLoad = LoadFails | Loaded(page: Page)

  /** The result of a scan: a URL, nothing, or an exception that escapes it. */
  datatype ScanOutcome = Hit(url: string) | Miss | Raised

  /** A link counts as a job-board link when its href can be read, is
      non-empty and matches some third-party pattern. */
  predicate JobBoardLink(l: Link, matches: (string, string) -> bool) {
    l.href.Href? && l.href.value != ""
    && exists k :: 0 <= k < |ThirdPartyPatterns| && matches(ThirdPartyPatterns[k], l.href.value)
  }

  /** The raw href of the first job-board link in document order; links
      whose href cannot be read are skipped. */
  function ThirdPartyScan(links: seq<Link>, matches: (string, string) -> bool): (r: Option<string>)
    ensures r.Some? ==>
              exists i :: 0 <= i < |links| && JobBoardLink(links[i], matches)
                && r.value == links[i].href.value
                && forall j :: 0 <= j < i ==> !JobBoardLink(links[j], matches)
    ensures r.None? ==> forall i :: 0 <= i < |links| ==> !JobBoardLink(links[i], matches)
  {
    match FirstIndex(links, (l: Link) => JobBoardLink(l, matches))
    case None => None
    case Some(i) => Some(links[i].href.value)
  }

  /** What one link-text pattern decides: nothing when no link's text matches
      it or when the first matching link has an empty or missing href; an
      exception when that href cannot be read; otherwise the resolved href. */
  function PatternVerdict(links: seq<Link>, pattern: string, base: string,
                          matches: (string, string) -> bool): (v: ScanOutcome)
    ensures v.Hit? ==>
              exists i :: 0 <= i < |links| && matches(pattern, links[i].text)
                && (forall j :: 0 <= j < i ==> !matches(pattern, links[j].text))
                && links[i].href.Href? && links[i].href.value != ""
                && v.url == Resolve(base, links[i].href.value)
    ensures v == Raised ==>
              exists i :: 0 <= i < |links| && matches(pattern, links[i].text)
                && (forall j :: 0 <= j < i ==> !matches(pattern, links[j].text))
                && links[i].href == HrefFails
    ensures v == Miss ==>
              (forall i :: 0 <= i < |links| ==> !matches(pattern, links[i].text))
              || exists i :: 0 <= i < |links| && matches(pattern, links[i].text)
                   && (forall j :: 0 <= j < i ==> !matches(pattern, links[j].text))
                   && (links[i].href == NoHref || links[i].href == Href(""))
  {
    match FirstIndex(links, (l: Link) => matches(pattern, l.text))
    case None => Miss
    case Some(i) =>
      match links[i].href
      case HrefFails => Raised
      case NoHref => Miss
      case Href(h) => if h == "" then Miss else Hit(Resolve(base, h))
  }

  /** The first verdict that is not `Miss`, or `Miss` when there is none. */
  function FirstDecisive(vs: seq<ScanOutcome>): (r: ScanOutcome)
    ensures r != Miss ==>
              exists k :: 0 <= k < |vs| && r == vs[k] && forall j :: 0 <= j < k ==> vs[j] == Miss
    ensures r == Miss ==> forall k :: 0 <= k < |vs| ==> vs[k] == Miss
    decreases |vs|
  {
    if |vs| == 0 then Miss
    else if vs[0] != Miss then vs[0]
    else
      var r := FirstDecisive(vs[1..]);
      assert r != Miss ==> exists k :: 1 <= k < |vs| && r == vs[k] && forall j :: 0 <= j < k ==> vs[j] == Miss by {
        if r != Miss {
          var k :| 0 <= k < |vs[1..]| && r == vs[1..][k] && forall j :: 0 <= j < k ==> vs[1..][j] == Miss;
          assert r == vs[k + 1];
          forall j | 0 <= j < k + 1 ensures vs[j] == Miss {
            if j > 0 {
              assert vs[j] == vs[1..][j - 1];
            }
          }
        }
      }
      r
  }

  /** The verdicts of all link-text patterns over `links`, in priority order. */
  function LinkTextVerdicts(links: seq<Link>, base: string,
                            matches: (string, string) -> bool): (vs: seq<ScanOutcome>)
    ensures |vs| == |LinkTexts|
    ensures forall k :: 0 <= k < |vs| ==> vs[k] == PatternVerdict(links, LinkTexts[k], base, matches)
  {
    seq(|LinkTexts|, k requires 0 <= k < |LinkTexts| => PatternVerdict(links, LinkTexts[k], base, matches))
  }

  /** The link-text scan: patterns form the outer loop, links the inner one,
      so the earliest pattern with a decisive first link wins. */
  function LinkTextScan(links: seq<Link>, base: string, matches: (string, string) -> bool): (r: ScanOutcome)
    ensures r != Miss ==>
              exists k :: 0 <= k < |LinkTexts|
                && r == PatternVerdict(links, LinkTexts[k], base, matches)
                && forall j :: 0 <= j < k ==> PatternVerdict(links, LinkTexts[j], base, matches) == Miss
    ensures r == Miss ==>
              forall k :: 0 <= k < |LinkTexts| ==> PatternVerdict(links, LinkTexts[k], base, matches) == Miss
  {
    FirstDecisive(LinkTextVerdicts(links, base, matches))
  }

  /** A link-text hit against a website with a host is scheme-qualified. */
  lemma LinkTextHitIsAbsolute(links: seq<Link>, base: string, matches: (string, string) -> bool)
    requires HasHost(base)
    ensures LinkTextScan(links, base, matches).Hit? ==> HasHttpScheme(LinkTextScan(links, base, matches).url)
  {
    var r := LinkTextScan(links, base, matches);
    if r.Hit? {
      var k :| 0 <= k < |LinkTexts| && r == PatternVerdict(links, LinkTexts[k], base, matches);
      var i :| 0 <= i < |links| && links[i].href.Href? && r.url == Resolve(base, links[i].href.value);
      ResolveIsAbsolute(base, links[i].href.value);
    }
  }

  /** A first matching link with an empty href sends the scan to the next
      pattern, even when a later link matches the same pattern with a usable href. */
  lemma EmptyHrefSkipsPattern(links: seq<Link>, pattern: string, base: string,
                              matches: (string, string) -> bool, i: nat)
    requires i < |links| && matches(pattern, links[i].text)
    requires forall j :: 0 <= j < i ==> !matches(pattern, links[j].text)
    requires links[i].href == NoHref || links[i].href == Href("")
    ensures PatternVerdict(links, pattern, base, matches) == Miss
  {
  }

  /** Some link's whole text equals the navigation label, ignoring case. */
  predicate HasNavLink(links: seq<Link>, navLabel: string) {
    exists i :: 0 <= i < |links| && Lower(links[i].text) == navLabel
  }

  /** What one navigation label decides: nothing when no link carries it;
      an exception when hovering it fails; otherwise the link-text scan of
      the links visible after the hover. */
  function NavVerdict(page: Page, navLabel: string, base: string,
                      matches: (string, string) -> bool): (v: ScanOutcome)
    ensures v != Miss ==> HasNavLink(page.links, navLabel)
    ensures HasNavLink(page.links, navLabel) && page.hover(navLabel).HoverFails? ==> v == Raised
    ensures HasNavLink(page.links, navLabel) && page.hover(navLabel).Revealed? ==>
              v == LinkTextScan(page.hover(navLabel).links, base, matches)
  {
    if !HasNavLink(page.links, navLabel) then Miss
    else
      match page.hover(navLabel)
      case HoverFails => Raised
      case Revealed(shown) => LinkTextScan(shown, base, matches)
  }

  /** The verdicts of all navigation labels, in order. */
  function NavVerdicts(page: Page, base: string, matches: (string, string) -> bool): (vs: seq<ScanOutcome>)
    ensures |vs| == |NavLabels|
    ensures forall k :: 0 <= k < |vs| ==> vs[k] == NavVerdict(page, NavLabels[k], base, matches)
  {
    seq(|NavLabels|, k requires 0 <= k < |NavLabels| => NavVerdict(page, NavLabels[k], base, matches))
  }

  /** The navigation-menu scan: navigation labels in order, the first
      decisive label wins. */
  function NavScan(page: Page, base: string, matches: (string, string) -> bool): (r: ScanOutcome)
    ensures r != Miss ==>
              exists k :: 0 <= k < |NavLabels|
                && HasNavLink(page.links, NavLabels[k])
                && r == NavVerdict(page, NavLabels[k], base, matches)
                && forall j :: 0 <= j < k ==> NavVerdict(page, NavLabels[j], base, matches) == Miss
    ensures r == Miss ==>
              forall k :: 0 <= k < |NavLabels| ==> NavVerdict(page, NavLabels[k], base, matches) == Miss
  {
    FirstDecisive(NavVerdicts(page, base, matches))
  }

  /** A hit for one navigation label is scheme-qualified. */
  lemma NavVerdictHitIsAbsolute(page: Page, navLabel: string, base: string, matches: (string, string) -> bool)
    requires HasHost(base)
    ensures NavVerdict(page, navLabel, base, matches).Hit? ==>
              HasHttpScheme(NavVerdict(page, navLabel, base, matches).url)
  {
    if page.hover(navLabel).Revealed? {
      LinkTextHitIsAbsolute(page.hover(navLabel).links, base, matches);
    }
  }

  /** A navigation hit against a website with a host is scheme-qualified. */
  lemma NavHitIsAbsolute(page: Page, base: string, matches: (string, string) -> bool)
    requires HasHost(base)
    ensures NavScan(page, base, matches).Hit? ==> HasHttpScheme(NavScan(page, base, matches).url)
  {
    var r := NavScan(page, base, matches);
    if r.Hit? {
      var k :| 0 <= k < |NavLabels| && HasNavLink(page.links, NavLabels[k])
               && r == NavVerdict(page, NavLabels[k], base, matches);
      NavVerdictHitIsAbsolute(page, NavLabels[k], base, matches);
    }
  }
}

=== FILE: probing.dfy ===
/** Probing candidate URLs (strategies 0 and 4) and the search fallback
    (strategy 5). The network is an oracle: `probe(url)` is what navigating
    to `url` yields, with exceptions and timeouts folded into `Unreachable`. */
module Probing {
  import opened Wrappers
  import opened Seqs
  import opened Strings
  import opened Catalogs
  import opened Urls

  /** What navigating to a URL produced: an exception or timeout, a
      navigation without a response object, or a response and its content. */
  datatype Probe = Unreachable | NoResponse | Response(status: int, content: string)

  /** A probe counts when a response exists, its status is below 400 and its
      content contains one of `signals`, ignoring case. */
  predicate Accepts(p: Probe, signals: seq<string>) {
    p.Response? && p.status < 400 && HasSignal(p.content, signals)
  }

  /** The accepted URL, if any, and the URLs navigated to, in order. */
  datatype ProbeRun = ProbeRun(found: Option<string>, probed: seq<string>)

  /** The direct-path signals extend the page signals: a probe accepted
      against the page signals is accepted against the direct-path signals. */
  lemma PageAcceptanceImpliesDirect(p: Probe)
    ensures Accepts(p, PageSignals) ==> Accepts(p, DirectSignals)
  {
    if Accepts(p, PageSignals) {
      var k :| 0 <= k < |PageSignals| && Contains(Lower(p.content), PageSignals[k]);
      var m := if k < 5 then k else 7;
      assert PageSignals[k] == DirectSignals[m];
    }
  }

  /** Probe `candidates` in order and stop at the first accepted one. */
  function FirstAccepted(candidates: seq<string>, probe: string -> Probe, signals: seq<string>): (run: ProbeRun)
    ensures run.probed <= candidates
    ensures forall i :: 0 <= i < |run.probed| - 1 ==> !Accepts(probe(run.probed[i]), signals)
    ensures run.found.Some? ==>
              |run.probed| > 0 && run.found.value == run.probed[|run.probed| - 1]
              && Accepts(probe(run.found.value), signals)
    ensures run.found.None? ==>
              run.probed == candidates
              && forall i :: 0 <= i < |candidates| ==> !Accepts(probe(candidates[i]), signals)
  {
    match FirstIndex(candidates, u => Accepts(probe(u), signals))
    case None => ProbeRun(None, candidates)
    case Some(i) => ProbeRun(Some(candidates[i]), candidates[..i + 1])
  }

  /** The subdomain candidates under one base domain: `https://<label>.<d>`
      for every subdomain label, in label order. */
  function CandidatesUnder(d: string): (cs: seq<string>)
    ensures |cs| == |SubdomainPatterns|
    ensures forall k :: 0 <= k < |cs| ==> cs[k] == Https + SubdomainPatterns[k] + "." + d
    ensures forall k :: 0 <= k < |cs| ==> Https <= cs[k]
  {
    var cs := seq(|SubdomainPatterns|, k requires 0 <= k < |SubdomainPatterns| => Https + SubdomainPatterns[k] + "." + d);
    assert forall k :: 0 <= k < |cs| ==> cs[k][..|Https|] == Https;
    cs
  }

  /** Strategy 0's candidates: those under the website's base domain, or
      none when the website has no http(s) host. */
  function SubdomainCandidates(base: string): (cs: Option<seq<string>>)
    ensures cs.None? <==> HostOf(base).None?
    ensures cs.Some? ==> cs.value == CandidatesUnder(BaseDomain(HostOf(base).value))
  {
    match HostOf(base)
    case None => None
    case Some(host) => Some(CandidatesUnder(BaseDomain(host)))
  }

  /** A string without `/` is its own host part. */
  lemma TakeHostWhole(s: string)
    requires '/' !in s
    ensures TakeHost(s) == s
  {
  }

  /** A candidate host built from a plain label parses back unchanged. */
  lemma CandidateHost(sub: string, d: string)
    requires |sub| >= 2 && '/' !in sub && (sub[0] != 'w' || sub[1] != 'w')
    requires '/' !in d
    ensures HostOf(Https + sub + "." + d) == Some(sub + "." + d)
  {
    var rest := sub + "." + d;
    var c := Https + rest;
    assert c == Https + (sub + "." + d);
    assert c[..|Https|] == Https;
    assert SchemeLength(c) == |Https|;
    assert c[|Https|..] == rest;
    assert rest[0] == sub[0] && rest[1] == sub[1];
    assert !StripsWww(rest);
    assert '/' !in rest;
    TakeHostWhole(rest);
    assert TakeHost(rest) == rest;
    assert AfterScheme(c) == rest;
    assert HasHttpScheme(c);
    assert HostOf(c) == Some(rest);
    assert Https + sub + "." + d == c;
  }

  /** The base domain of a host has no `/` when the host has none. */
  lemma BaseDomainSlashFree(host: string)
    requires '/' !in host
    ensures '/' !in BaseDomain(host)
  {
    var d := BaseDomain(host);
    var n := |host| - |d|;
    assert d == host[n..];
    forall c | c in d ensures c in host {
      var j :| 0 <= j < |d| && d[j] == c;
      assert host[n + j] == c;
    }
  }

  /** Subdomain candidates depend on the website only through its base domain. */
  lemma CandidatesFollowBaseDomain(a: string, b: string)
    ensures HostOf(a).Some? && HostOf(b).Some?
            && BaseDomain(HostOf(a).value) == BaseDomain(HostOf(b).value)
            ==> SubdomainCandidates(a) == SubdomainCandidates(b)
  {
  }

  /** Every subdomain candidate parses back to `<label>.<base domain>`. */
  lemma SubdomainCandidateHost(base: string, k: nat)
    requires SubdomainCandidates(base).Some?
    requires k < |SubdomainPatterns|
    ensures HostOf(SubdomainCandidates(base).value[k])
            == Some(SubdomainPatterns[k] + "." + BaseDomain(HostOf(base).value))
  {
    var host := HostOf(base).value;
    var d := BaseDomain(host);
    SubdomainLabelIsPlain(k);
    BaseDomainSlashFree(host);
    CandidateHost(SubdomainPatterns[k], d);
  }

  /** When the host has at least two labels, generating candidates from any
      candidate gives the same candidates again. */
  lemma SubdomainCandidatesStable(base: string, k: nat)
    requires SubdomainCandidates(base).Some?
    requires k < |SubdomainPatterns|
    requires |Split(HostOf(base).value, '.')| >= 2
    ensures SubdomainCandidates(SubdomainCandidates(base).value[k]) == SubdomainCandidates(base)
  {
    var host := HostOf(base).value;
    var d := BaseDomain(host);
    var c := SubdomainCandidates(base).value[k];
    SubdomainCandidateHost(base, k);
    assert |Split(d, '.')| == 2 by {
      BaseDomainLabels(host);
    }
    SubdomainLabelIsPlain(k);
    BaseDomainUnderLabel(SubdomainPatterns[k], d);
    assert BaseDomain(HostOf(c).value) == d;
    CandidatesFollowBaseDomain(c, base);
  }

  /** Strategy 4's candidates: the website without trailing slashes followed
      by every catalog path, in order, duplicates kept. */
  function DirectCandidates(base: string): (cs: seq<string>)
    ensures |cs| == |UrlPatterns|
    ensures forall k :: 0 <= k < |cs| ==> cs[k] == RStripSlash(base) + UrlPatterns[k]
  {
    seq(|UrlPatterns|, k requires 0 <= k < |UrlPatterns| => RStripSlash(base) + UrlPatterns[k])
  }

  /** The direct candidates of a website with a host are scheme-qualified
      URLs on that website. */
  lemma DirectCandidatesOnSite(base: string)
    requires HasHost(base)
    ensures forall k :: 0 <= k < |DirectCandidates(base)| ==>
              HasHttpScheme(DirectCandidates(base)[k]) && RStripSlash(base) <= DirectCandidates(base)[k]
  {
    StripKeepsScheme(base);
    var s := RStripSlash(base);
    var n := SchemeLength(base);
    forall k | 0 <= k < |DirectCandidates(base)|
      ensures HasHttpScheme(DirectCandidates(base)[k])
    {
      var c := DirectCandidates(base)[k];
      assert c[..n] == s[..n];
    }
  }

  /** The repeated catalog paths are probed repeatedly. */
  lemma DirectCandidatesRepeat(base: string)
    ensures var cs := DirectCandidates(base);
            |cs| == 61
            && cs[13] == cs[18] == cs[52] == RStripSlash(base) + "/job-opportunities"
            && cs[5] == cs[22] == cs[53] == RStripSlash(base) + "/job-openings"
  {
    RepeatedPaths();
  }

  /** What one search attempt produced: an exception or timeout, no result
      heading mentioning careers, or the page reached by clicking the first one. */
  datatype Landing = SearchFails | NoHeading | Landed(url: string, content: string)

  /** A landing counts when its page content carries a page signal. */
  predicate LandingAccepted(l: Landing) {
    l.Landed? && HasSignal(l.content, PageSignals)
  }

  /** The five search queries built from the company name, in order. */
  function SearchQueries(name: string): (qs: seq<string>)
    ensures |qs| == |QuerySuffixes|
    ensures forall k :: 0 <= k < |qs| ==> name <= qs[k] && qs[k][|name|..] == QuerySuffixes[k]
  {
    seq(|QuerySuffixes|, k requires 0 <= k < |QuerySuffixes| => name + QuerySuffixes[k])
  }

  /** Strategy 5: the final URL of the first query whose landing page counts. */
  function SearchStrategy(name: string, search: string -> Landing): (r: Option<string>)
    ensures r.Some? ==>
              exists k :: 0 <= k < |SearchQueries(name)|
                && LandingAccepted(search(SearchQueries(name)[k]))
                && r.value == search(SearchQueries(name)[k]).url
                && forall j :: 0 <= j < k ==> !LandingAccepted(search(SearchQueries(name)[j]))
    ensures r.None? ==>
              forall k :: 0 <= k < |SearchQueries(name)| ==> !LandingAccepted(search(SearchQueries(name)[k]))
  {
    var qs := SearchQueries(name);
    match FirstIndex(qs, q => LandingAccepted(search(q)))
    case None => None
    case Some(k) => Some(search(qs[k]).url)
  }
}

=== FILE: recorder.dfy ===
/** Resume and record semantics of the discovery run: the output store is a
    sequence of rows; companies already recorded with a non-empty career URL
    are skipped; every other input row gets exactly one appended row. */
module Recorder {
  import opened Seqs
  import opened Urls
  import opened Chain

  /** One output row (the timestamp column is not modelled). */
  datatype OutRow = OutRow(company: string, website: string, careerUrl: string)

  /** One input row: column name to cell text. */
  type InRow = map<string, string>

  /** The processed set: companies of rows whose career URL is non-empty. */
  function Processed(store: seq<OutRow>): (done: set<string>)
    ensures forall c :: c in done <==>
              exists i :: 0 <= i < |store| && store[i].company == c && store[i].careerUrl != ""
    decreases |store|
  {
    if |store| == 0 then {}
    else
      var rest := Processed(store[1..]);
      assert forall i :: 1 <= i < |store| ==> store[i] == store[1..][i - 1];
      if store[0].careerUrl != "" then {store[0].company} + rest else rest
  }

  /** `row.get(primary, row.get(fallback, ''))`: the primary column when the
      row has it (even when empty), else the fallback column, else empty. */
  function Field(row: InRow, primary: string, fallback: string): string {
    if primary in row then row[primary] else if fallback in row then row[fallback] else ""
  }

  function CompanyName(row: InRow): string {
    Field(row, "company", "name")
  }

  function WebsiteOf(row: InRow): string {
    Field(row, "website", "url")
  }

  /** The input rows still to process, in input order. */
  function Queue(input: seq<InRow>, done: set<string>): (q: seq<InRow>)
    ensures IsSubsequence(q, input)
    ensures forall i :: 0 <= i < |q| ==> CompanyName(q[i]) !in done
    ensures forall i :: 0 <= i < |input| && CompanyName(input[i]) !in done ==> input[i] in q
    ensures forall x :: multiset(q)[x] == if CompanyName(x) in done then 0 else multiset(input)[x]
  {
    FilterMultiset(input, (r: InRow) => CompanyName(r) !in done);
    Filter(input, (r: InRow) => CompanyName(r) !in done)
  }

  /** The career-URL cell: the found URL, or empty on a miss or an exception. */
  function CareerUrl(o: Outcome): (url: string)
    ensures o.Found? ==> url == o.url
    ensures !o.Found? ==> url == ""
  {
    if o.Found? then o.url else ""
  }

  /** The row recorded for one queued input row. */
  function RecordFor(row: InRow, env: Env): (out: OutRow)
    ensures out.company == CompanyName(row)
    ensures out.website == NormalizeWebsite(WebsiteOf(row)) && HasHttpScheme(out.website)
  {
    var website := NormalizeWebsite(WebsiteOf(row));
    OutRow(CompanyName(row), website, CareerUrl(Discover(env, website, CompanyName(row)).outcome))
  }

  /** The recorded career URL is what discovery on the normalised website
      found, and empty when it found nothing or an exception escaped it. */
  lemma RecordedCareerUrl(row: InRow, env: Env)
    ensures var out := RecordFor(row, env);
            var d := Discover(env, out.website, out.company);
            (d.outcome.Found? ==> out.careerUrl == d.outcome.url)
            && (d.outcome.NotFound? || d.outcome.Crashed? ==> out.careerUrl == "")
  {
  }

  /** Append `record(q)` for every queued row `q`, in queue order, keeping
      the existing rows as they are. */
  method AppendRecords(store: seq<OutRow>, queue: seq<InRow>, record: InRow -> OutRow)
    returns (out: seq<OutRow>)
    ensures |out| == |store| + |queue|
    ensures out[..|store|] == store
    ensures forall i :: 0 <= i < |queue| ==> out[|store| + i] == record(queue[i])
  {
    out := store;
    var k := 0;
    while k < |queue|
      invariant 0 <= k <= |queue|
      invariant |out| == |store| + k
      invariant out[..|store|] == store
      invariant forall i :: 0 <= i < k ==> out[|store| + i] == record(queue[i])
    {
      out := out + [record(queue[k])];
      k := k + 1;
    }
  }

  /** One run: the existing rows are kept as they are, and each queued
      company appends exactly one row, in queue order. */
  method ProcessCompanies(store: seq<OutRow>, input: seq<InRow>, env: Env) returns (out: seq<OutRow>)
    ensures |out| == |store| + |Queue(input, Processed(store))|
    ensures out[..|store|] == store
    ensures forall i :: 0 <= i < |Queue(input, Processed(store))| ==>
              out[|store| + i] == RecordFor(Queue(input, Processed(store))[i], env)
  {
    var queue := Queue(input, Processed(store));
    out := AppendRecords(store, queue, (r: InRow) => RecordFor(r, env));
  }

  /** Resume: a company already recorded with a career URL gets no new row. */
  lemma ResumeSkipsProcessed(store: seq<OutRow>, input: seq<InRow>, env: Env)
    ensures var q := Queue(input, Processed(store));
            forall i :: 0 <= i < |q| ==> RecordFor(q[i], env).company !in Processed(store)
  {
  }

  /** The processed set only grows, and every company whose appended row
      carries a URL is processed from then on. */
  lemma ProcessedGrows(store: seq<OutRow>, appended: seq<OutRow>)
    ensures Processed(store) <= Processed(store + appended)
    ensures forall i :: 0 <= i < |appended| && appended[i].careerUrl != "" ==>
              appended[i].company in Processed(store + appended)
  {
    var all := store + appended;
    forall c | c in Processed(store) ensures c in Processed(all) {
      var i :| 0 <= i < |store| && store[i].company == c && store[i].careerUrl != "";
      assert all[i] == store[i];
    }
    forall i | 0 <= i < |appended| && appended[i].careerUrl != ""
      ensures appended[i].company in Processed(all)
    {
      assert all[|store| + i] == appended[i];
    }
  }

  /** The processed set is not updated during a run: two input rows naming
      the same unprocessed company both get a row. */
  lemma DuplicateRowsBothRecorded(store: seq<OutRow>, row: InRow)
    requires CompanyName(row) !in Processed(store)
    ensures Queue([row, row], Processed(store)) == [row, row]
  {
    var q := Queue([row, row], Processed(store));
    assert [row, row][1..] == [row];
  }
}

=== FILE: seqs.dfy ===
/** Generic sequence helpers: first match, order-preserving filter and the
    subsequence relation they are specified against. */
module Seqs {
  import opened Wrappers

  /** The position of the first element satisfying `p`, if any
      (first-match-wins scanning). */
  function FirstIndex<T>(s: seq<T>, p: T -> bool): (r: Option<nat>)
    ensures r.Some? ==> r.value < |s| && p(s[r.value])
    ensures r.Some? ==> forall j :: 0 <= j < r.value ==> !p(s[j])
    ensures r.None? ==> forall j :: 0 <= j < |s| ==> !p(s[j])
    decreases |s|
  {
    if |s| == 0 then None
    else if p(s[0]) then Some(0)
    else
      match FirstIndex(s[1..], p)
      case None => None
      case Some(i) => Some(i + 1)
  }

  /** `a` is obtained from `b` by deleting elements, keeping the rest in order. */
  predicate IsSubsequence<T(==)>(a: seq<T>, b: seq<T>)
    decreases |b|
  {
    if |a| == 0 then true
    else if |b| == 0 then false
    else if a[0] == b[0] then IsSubsequence(a[1..], b[1..])
    else IsSubsequence(a, b[1..])
  }

  /** The elements of `s` that satisfy `p`, in their original order. */
  function Filter<T(==,!new)>(s: seq<T>, p: T -> bool): (r: seq<T>)
    ensures |r| <= |s|
    ensures forall i :: 0 <= i < |r| ==> r[i] in s && p(r[i])
    ensures forall i :: 0 <= i < |s| && p(s[i]) ==> s[i] in r
    ensures IsSubsequence(r, s)
    decreases |s|
  {
    if |s| == 0 then []
    else if p(s[0]) then [s[0]] + Filter(s[1..], p)
    else Filter(s[1..], p)
  }

  /** Filtering keeps every passing element as often as it occurs and drops
      every other one. */
  lemma {:induction false} FilterMultiset<T(!new)>(s: seq<T>, p: T -> bool)
    ensures forall x :: multiset(Filter(s, p))[x] == if p(x) then multiset(s)[x] else 0
    decreases |s|
  {
    if |s| > 0 {
      FilterMultiset(s[1..], p);
      assert s == [s[0]] + s[1..];
      assert multiset(s) == multiset([s[0]]) + multiset(s[1..]);
      if p(s[0]) {
        assert multiset([s[0]] + Filter(s[1..], p)) == multiset([s[0]]) + multiset(Filter(s[1..], p));
      }
    }
  }

  /** Filtering distributes over concatenation: order across the two parts is kept. */
  lemma {:induction false} FilterAppend<T(!new)>(a: seq<T>, b: seq<T>, p: T -> bool)
    ensures Filter(a + b, p) == Filter(a, p) + Filter(b, p)
    decreases |a|
  {
    if |a| == 0 {
      assert a + b == b;
    } else {
      assert (a + b)[1..] == a[1..] + b;
      FilterAppend(a[1..], b, p);
    }
  }

  /** A sequence all of whose elements satisfy `p` passes the filter unchanged. */
  lemma {:induction false} FilterAllPass<T(!new)>(s: seq<T>, p: T -> bool)
    requires forall i :: 0 <= i < |s| ==> p(s[i])
    ensures Filter(s, p) == s
    decreases |s|
  {
    if |s| > 0 {
      FilterAllPass(s[1..], p);
    }
  }

  /** Filtering twice with the same predicate is filtering once. */
  lemma FilterIdempotent<T(!new)>(s: seq<T>, p: T -> bool)
    ensures Filter(Filter(s, p), p) == Filter(s, p)
  {
    FilterAllPass(Filter(s, p), p);
  }
}

=== FILE: strings.dfy ===
/** Text operations the model needs: ASCII lower-casing, substring search,
    `str.rstrip("/")`, and `str.split` / `str.join` on one separator character. */
module Strings {

  /** ASCII lower-casing of one character; every other character is unchanged. */
  function LowerChar(c: char): char {
    if 'A' <= c <= 'Z' then (c as int + 32) as char else c
  }

  /** `str.lower()`, restricted to the ASCII letters. */
  function Lower(s: string): (r: string)
    ensures |r| == |s|
    ensures forall i :: 0 <= i < |s| ==> r[i] == LowerChar(s[i])
  {
    seq(|s|, i requires 0 <= i < |s| => LowerChar(s[i]))
  }

  /** Lower-casing an already lower-cased string changes nothing. */
  lemma LowerIdempotent(s: string)
    ensures Lower(Lower(s)) == Lower(s)
  {
  }

  /** `w` occurs in `s` starting at position `i`. */
  predicate OccursAt(s: string, w: string, i: int) {
    0 <= i && i + |w| <= |s| && s[i..i + |w|] == w
  }

  /** Python's `w in s` on strings: `w` is a contiguous substring of `s`. */
  predicate Contains(s: string, w: string)
    decreases |s|
  {
    w <= s || (|s| > 0 && Contains(s[1..], w))
  }

  /** `Contains` agrees with the positional definition of a substring, in both directions. */
  lemma {:induction false} ContainsIffOccurs(s: string, w: string)
    ensures Contains(s, w) <==> exists i :: OccursAt(s, w, i)
    decreases |s|
  {
    if w <= s {
      assert OccursAt(s, w, 0);
    } else if |s| > 0 {
      ContainsIffOccurs(s[1..], w);
      if Contains(s[1..], w) {
        var i :| OccursAt(s[1..], w, i);
        assert s[1..][i..i + |w|] == s[i + 1..i + 1 + |w|];
        assert OccursAt(s, w, i + 1);
      } else {
        forall i | 1 <= i ensures !OccursAt(s, w, i) {
          if i + |w| <= |s| {
            assert s[1..][i - 1..i - 1 + |w|] == s[i..i + |w|];
            assert !OccursAt(s[1..], w, i - 1);
          }
        }
      }
    }
  }

  /** Case-insensitive search for any of `words` (all lower case) in `text`,
      as `re.search("(w1|w2|...)", text, re.I)` does for plain literals. */
  predicate HasSignal(text: string, words: seq<string>) {
    exists k :: 0 <= k < |words| && Contains(Lower(text), words[k])
  }

  /** `str.rstrip("/")`: remove every trailing slash. */
  function RStripSlash(s: string): (r: string)
    ensures r <= s
    ensures |r| == 0 || r[|r| - 1] != '/'
    ensures forall i :: |r| <= i < |s| ==> s[i] == '/'
    decreases |s|
  {
    if |s| > 0 && s[|s| - 1] == '/' then RStripSlash(s[..|s| - 1]) else s
  }

  /** `sep.join(parts)`. */
  function Join(parts: seq<string>, sep: char): string
    decreases |parts|
  {
    if |parts| == 0 then ""
    else if |parts| == 1 then parts[0]
    else parts[0] + [sep] + Join(parts[1..], sep)
  }

  /** No part contains the separator. */
  predicate SeparatorFree(parts: seq<string>, sep: char) {
    forall k :: 0 <= k < |parts| ==> sep !in parts[k]
  }

  /** `s.split(sep)`: the maximal separator-free pieces between separators;
      there is always at least one piece, and joining them back gives `s`. */
  function Split(s: string, sep: char): (parts: seq<string>)
    ensures |parts| >= 1
    ensures SeparatorFree(parts, sep)
    ensures Join(parts, sep) == s
    decreases |s|
  {
    if |s| == 0 then [""]
    else
      var rest := Split(s[1..], sep);
      if s[0] == sep then
        assert Join([""] + rest, sep) == [sep] + Join(rest, sep) by {
          assert ([""] + rest)[1..] == rest;
        }
        [""] + rest
      else
        var parts := [[s[0]] + rest[0]] + rest[1..];
        assert Join(parts, sep) == [s[0]] + Join(rest, sep) by {
          if |rest| > 1 {
            assert parts[1..] == rest[1..];
          }
        }
        parts
  }

  /** Moving the first character of the first part out of a join. */
  lemma JoinPeel(parts: seq<string>, sep: char)
    requires |parts| >= 1 && |parts[0]| > 0
    ensures Join(parts, sep) == [parts[0][0]] + Join([parts[0][1..]] + parts[1..], sep)
  {
    var head := parts[0];
    var shorter := [head[1..]] + parts[1..];
    assert shorter[1..] == parts[1..];
    if |parts| > 1 {
      assert parts[0] + [sep] + Join(parts[1..], sep)
          == [head[0]] + (head[1..] + [sep] + Join(parts[1..], sep));
    } else {
      assert head == [head[0]] + head[1..];
    }
  }

  /** Splitting a join of separator-free parts recovers the parts: the other
      direction of the round trip. */
  lemma {:induction false} SplitJoin(parts: seq<string>, sep: char)
    requires |parts| >= 1
    requires SeparatorFree(parts, sep)
    ensures Split(Join(parts, sep), sep) == parts
    decreases |parts|, |parts[0]|
  {
    var head := parts[0];
    if |head| == 0 {
      if |parts| > 1 {
        var tail := parts[1..];
        SplitJoin(tail, sep);
        assert Join(parts, sep) == [sep] + Join(tail, sep);
        assert Join(parts, sep)[1..] == Join(tail, sep);
        assert [""] + tail == parts;
      }
    } else {
      var shorter := [head[1..]] + parts[1..];
      assert shorter[1..] == parts[1..];
      assert SeparatorFree(shorter, sep) by {
        forall k | 0 <= k < |shorter| ensures sep !in shorter[k] {
          if k == 0 {
            assert forall c :: c in head[1..] ==> c in head;
          } else {
            assert shorter[k] == parts[k];
          }
        }
      }
      SplitJoin(shorter, sep);
      var s := Join(parts, sep);
      JoinPeel(parts, sep);
      assert s[0] == head[0] && head[0] != sep by {
        assert head[0] in head;
      }
      assert s[1..] == Join(shorter, sep);
      var rest := Split(s[1..], sep);
      assert rest == shorter;
      assert [[head[0]] + rest[0]] + rest[1..] == parts by {
        assert [head[0]] + head[1..] == head;
      }
    }
  }
}

=== FILE: urls.dfy ===
/** URL handling in career-page discovery: scheme tests, href resolution
    against the company website, host extraction and base-domain derivation
    for subdomain guesses, and the `https://` coercion of input websites. */
module Urls {
  import opened Wrappers
  import opened Strings

  const Http: string := "http://"
  const Https: string := "https://"
  const Www: string := "www."

  /** `u.startswith(("http://", "https://"))`; case-sensitive, as in `career_page_url_finder.py`. */
  predicate HasHttpScheme(u: string) {
    Http <= u || Https <= u
  }

  /** Length of the scheme prefix of a URL that has one. */
  function SchemeLength(u: string): (n: nat)
    requires HasHttpScheme(u)
    ensures n <= |u| && HasHttpScheme(u[..n]) && (n == 7 || n == 8)
    ensures u[..n] == Http || u[..n] == Https
    ensures Https <= u <==> n == |Https|
  {
    if Https <= u then |Https| else |Http|
  }

  /** The URL after its scheme prefix. */
  function AfterScheme(u: string): string
    requires HasHttpScheme(u)
  {
    u[SchemeLength(u)..]
  }

  /** A scheme-qualified URL with a host: some character other than `/`
      follows the scheme. */
  predicate HasHost(u: string) {
    HasHttpScheme(u) && exists i :: SchemeLength(u) <= i < |u| && u[i] != '/'
  }

  /** Relative-href handling of the three link-text strategies: an href
      starting with `/` is appended to the website with its trailing slashes
      removed; an href with an http(s) scheme is kept; anything else is joined
      to the slash-stripped website with one `/`. */
  function Resolve(base: string, href: string): (r: string)
    ensures |href| <= |r| && r[|r| - |href|..] == href
    ensures HasHttpScheme(href) ==> r == href
    ensures !HasHttpScheme(href) ==> RStripSlash(base) <= r && |RStripSlash(base)| < |r|
    ensures !HasHttpScheme(href) ==> r[|RStripSlash(base)|] == '/'
    ensures !HasHttpScheme(href) ==>
              |r| == |RStripSlash(base)| + |href| + (if "/" <= href then 0 else 1)
  {
    if "/" <= href then
      assert href[0] == '/' && !HasHttpScheme(href);
      RStripSlash(base) + href
    else if HasHttpScheme(href) then href
    else RStripSlash(base) + "/" + href
  }

  /** Stripping trailing slashes from a URL with a host keeps its scheme and host. */
  lemma StripKeepsScheme(base: string)
    requires HasHost(base)
    ensures HasHttpScheme(RStripSlash(base))
    ensures SchemeLength(base) < |RStripSlash(base)|
  {
    var i :| SchemeLength(base) <= i < |base| && base[i] != '/';
    var r := RStripSlash(base);
    assert i < |r|;
    if Https <= base {
      assert r[..|Https|] == base[..|Https|];
    } else {
      assert r[..|Http|] == base[..|Http|];
    }
  }

  /** Against a website with a host, every resolved href is scheme-qualified. */
  lemma ResolveIsAbsolute(base: string, href: string)
    requires HasHost(base)
    ensures HasHttpScheme(Resolve(base, href))
  {
    if !HasHttpScheme(href) {
      StripKeepsScheme(base);
      var s := RStripSlash(base);
      var r := Resolve(base, href);
      if Https <= s {
        assert r[..|Https|] == s[..|Https|];
      } else {
        assert r[..|Http|] == s[..|Http|];
      }
    }
  }

  /** Resolving an already-resolved href changes nothing. */
  lemma ResolveIdempotent(base: string, href: string)
    requires HasHost(base)
    ensures Resolve(base, Resolve(base, href)) == Resolve(base, href)
  {
    ResolveIsAbsolute(base, href);
  }

  /** The longest prefix of `s` without a `/`: what `[^/]+` consumes. */
  function TakeHost(s: string): (h: string)
    ensures h <= s
    ensures '/' !in h
    ensures |h| == |s| || s[|h|] == '/'
    decreases |s|
  {
    if |s| == 0 || s[0] == '/' then "" else [s[0]] + TakeHost(s[1..])
  }

  /** The optional `www.` of the host pattern is consumed only when at least
      one host character follows it; otherwise the regex backtracks and keeps it. */
  predicate StripsWww(rest: string) {
    Www <= rest && |rest| > |Www| && rest[|Www|] != '/'
  }

  /** The capture of `re.match(r'https?://(?:www\.)?([^/]+)', url)`. */
  function HostOf(url: string): (host: Option<string>)
    ensures host.None? <==>
              !HasHttpScheme(url) || |AfterScheme(url)| == 0 || AfterScheme(url)[0] == '/'
    ensures host.Some? ==> |host.value| > 0 && '/' !in host.value
    ensures host.Some? ==>
              var rest := AfterScheme(url);
              var tail := if StripsWww(rest) then rest[|Www|..] else rest;
              host.value <= tail && (|tail| == |host.value| || tail[|host.value|] == '/')
  {
    if !HasHttpScheme(url) then None
    else
      var rest := AfterScheme(url);
      var h := TakeHost(if StripsWww(rest) then rest[|Www|..] else rest);
      if |h| == 0 then None else Some(h)
  }

  /** `[^/]+` stops at the first slash. */
  lemma {:induction false} TakeHostStopsAtSlash(a: string, b: string)
    requires '/' !in a
    ensures TakeHost(a + "/" + b) == a
    decreases |a|
  {
    if |a| == 0 {
      assert (a + "/" + b)[0] == '/';
    } else {
      assert (a + "/" + b)[1..] == a[1..] + "/" + b;
      TakeHostStopsAtSlash(a[1..], b);
      assert [a[0]] + a[1..] == a;
    }
  }

  /** A leading `www.` is not part of the host: `https://www.<h>/<path>` has
      host `<h>`. */
  lemma HostDropsWww(h: string, path: string)
    requires |h| > 0 && '/' !in h
    ensures HostOf(Https + Www + h + "/" + path) == Some(h)
  {
    var rest := Www + h + "/" + path;
    var u := Https + rest;
    assert Https + Www + h + "/" + path == u;
    assert u[..|Https|] == Https;
    assert AfterScheme(u) == rest;
    assert rest[..|Www|] == Www;
    assert rest[|Www|] == h[0];
    assert rest[|Www|..] == h + "/" + path;
    TakeHostStopsAtSlash(h, path);
  }

  /** The last two labels of a dot-separated list (all of it when shorter). */
  function LastTwo(labels: seq<string>): (r: seq<string>)
    ensures |r| == if |labels| >= 2 then 2 else |labels|
    ensures r == labels[|labels| - |r|..]
  {
    if |labels| >= 2 then labels[|labels| - 2..] else labels
  }

  /** Joining a tail of the parts gives a suffix of joining all of them. */
  lemma {:induction false} JoinTailIsSuffix(parts: seq<string>, k: nat, sep: char)
    requires k < |parts|
    ensures var whole := Join(parts, sep); var tail := Join(parts[k..], sep);
            |tail| <= |whole| && whole[|whole| - |tail|..] == tail
    decreases k
  {
    if k > 0 {
      JoinTailIsSuffix(parts[1..], k - 1, sep);
      assert parts[1..][k - 1..] == parts[k..];
    }
  }

  /** `'.'.join(domain.split('.')[-2:])`: the registrable part of a host. */
  function BaseDomain(host: string): (d: string)
    ensures |d| <= |host| && host[|host| - |d|..] == d
  {
    var labels := Split(host, '.');
    var last := LastTwo(labels);
    JoinTailIsSuffix(labels, |labels| - |last|, '.');
    Join(last, '.')
  }

  /** The labels of the base domain are the last two labels of the host. */
  lemma BaseDomainLabels(host: string)
    ensures Split(BaseDomain(host), '.') == LastTwo(Split(host, '.'))
  {
    var last := LastTwo(Split(host, '.'));
    SplitJoin(last, '.');
  }

  /** Taking the base domain twice is taking it once. */
  lemma BaseDomainIdempotent(host: string)
    ensures BaseDomain(BaseDomain(host)) == BaseDomain(host)
  {
    var d := BaseDomain(host);
    BaseDomainLabels(host);
    BaseDomainLabels(d);
    assert Join(Split(d, '.'), '.') == d;
  }

  /** Prefixing one more label to a two-label base domain does not change it. */
  lemma BaseDomainUnderLabel(sub: string, d: string)
    requires '.' !in sub
    requires |Split(d, '.')| == 2
    ensures BaseDomain(sub + "." + d) == d
  {
    var labels := Split(d, '.');
    var parts := [sub] + labels;
    assert parts[1..] == labels;
    assert SeparatorFree(parts, '.');
    assert Join(parts, '.') == sub + "." + d;
    SplitJoin(parts, '.');
  }

  /** A website without an http(s) scheme gets `https://` in front. */
  function NormalizeWebsite(w: string): (r: string)
    ensures HasHttpScheme(r)
    ensures HasHttpScheme(w) ==> r == w
    ensures !HasHttpScheme(w) ==> r == Https + w
  {
    if HasHttpScheme(w) then w else Https + w
  }

  /** Normalising a normalised website changes nothing. */
  lemma NormalizeWebsiteIdempotent(w: string)
    ensures NormalizeWebsite(NormalizeWebsite(w)) == NormalizeWebsite(w)
  {
  }
}

=== FILE: values.dfy ===
/** Decoded JSON-like values, as produced by a JSON decoder or read from a
    spreadsheet cell. Objects are maps: key order is not modelled. */
module Values {
  datatype Value =
    | Null
    | Bool(b: bool)
    | Num(n: int)
    | Str(s: string)
    | List(items: seq<Value>)
    | Dict(fields: map<string, Value>)
}

=== FILE: wrappers.dfy ===
/** The optional-value wrapper used throughout the model: the Python code's
    `None` return values become `None`, anything else becomes `Some`. */
module Wrappers {

  datatype Option<+T> = None | Some(value: T)
}
